=== FILE: README.md ===
# Spendra core, modelled in Dafny

This project models the core of the Spendra Android expense tracker and proves properties about that model. The core has three parts:

- **The SMS extractor** (`SmsParser.parseMessage`) turns a bank or UPI text message into a transaction, or rejects it. It works in this order:
  - a case-insensitive "rs" gate;
  - three patterns tried in a fixed order: debit with the amount after "debited", debit with the amount before "debited", then credit;
  - a separate scan for the available balance;
  - a 32-character lowercase-hex fingerprint of the message's SHA-256 digest.
- **The SMS receiver** (`SmsReceiver.onReceive`) handles each message of an SMS broadcast. It skips null parts and warns about senders that do not look like banks. Each parsed message is pushed to the ledger service in a request of its own.
- **The local store and the reconciler:**
  - the Room transaction table and its DAO (IGNORE insert, the unsynced query, ordered listing, the debit sum, marking synced, re-categorising by hash);
  - `HomeViewModel.syncTransactions`: reset every row to unsynced, push them all, and on success mark them synced and apply the category corrections the service returns.
- **Business rules:**
  - `generateInsights`, the health score and the pulse status of the insights screen;
  - the budget table (REPLACE insert under a unique `(userId, categoryId, period)` index) and the budget screen's `loadBudgets` and `setBudget`;
  - the savings-goal operations `addGoal` and `addSavings`.

Everything is a pure function over immutable datatypes. Tables are sequences of rows in rowid order, and the goal table is a map from id to goal. Every operation is one sequential step. The remote call is an input outcome. The clock, UUIDs, the device id and ISO-8601 rendering are parameters. The Java regex engine and SHA-256 are supplied together as an `Engine` value. `SmsParser.RegexSound` states what the patterns guarantee about any match they report: the amount group is `\d+(\.\d{2})?`, the party group is a piece of the message, and the message contains "rs" and the pattern's keyword.

Money is handled as follows:
- The parser and the transaction table use integer paise. The amount pattern allows at most two decimals, so `ParseAmount` is exact.
- Insights, budgets and goals pass Kotlin `Double` values through or compare them with thresholds, and are modelled with `real` rupees.

Modules, one file each: `Wrappers`, `Decimal`, `Amount`, `Text`, `Hex` (supporting definitions), `SmsParser`, `SmsReceiver`, `TransactionDao`, `HomeViewModel`, `Insights`, `Budgets`, `Goals`.

## Model

| member | source | states |
|---|---|---|
| `Amount.ParseAmount` | app/src/main/java/com/dharmikgohil/spendra/SmsParser.kt:86 | The amount group converts exactly when it is a `\d+(\.\d{2})?` token, so the result is a non-negative number of paise. |
| `Amount.AmountRoundTrip` | app/src/main/java/com/dharmikgohil/spendra/SmsParser.kt:48 | Formatting any paise amount as a token and parsing it back gives the same amount, so every amount is reachable. |
| `Amount.WholeAndCentsAgree` | app/src/main/java/com/dharmikgohil/spendra/SmsParser.kt:48 | "500" and "500.00" parse to the same amount, so the optional fraction only adds precision. |
| `Amount.LeadingZeroIgnored` | app/src/main/java/com/dharmikgohil/spendra/SmsParser.kt:86 | A leading zero does not change the amount, as `toDoubleOrNull()` reads "0500" as 500. With the two lemmas above this fixes the value of every token. |
| `Decimal.DigitsRoundTrip` | app/src/main/java/com/dharmikgohil/spendra/ui/InsightsScreen.kt:399 | The decimal rendering used in insight messages reads back as the number it renders. |
| `Text.Trim` | app/src/main/java/com/dharmikgohil/spendra/SmsParser.kt:87 | Kotlin `trim()` returns a contiguous slice of its input with no whitespace at either end, and everything cut off is whitespace. |
| `Text.TrimIdempotent` | app/src/main/java/com/dharmikgohil/spendra/SmsParser.kt:87 | Trimming twice is trimming once. |
| `Text.Take` | app/src/main/java/com/dharmikgohil/spendra/SmsParser.kt:87 | `take(n)` is the prefix of length min(n, length). |
| `Text.WhitespaceEnumerated` | app/src/main/java/com/dharmikgohil/spendra/SmsParser.kt:87 | The whitespace that `trim()` removes is exactly the 28 listed characters: TAB to CR, FS to US, the space, no-break space, ogham space mark, the U+2000 to U+200A spaces, the line and paragraph separators, the narrow no-break space, the medium mathematical space and the ideographic space. |
| `Text.AsciiRsPassesGate` | app/src/main/java/com/dharmikgohil/spendra/SmsParser.kt:45 | A message with an ASCII "rs" in any case passes the case-insensitive gate. |
| `Text.ContainsRsIgnoreCase` | app/src/main/java/com/dharmikgohil/spendra/SmsParser.kt:45 | The gate holds exactly when some character equal to "r" ignoring case is directly followed by one equal to "s" ignoring case, the long s included. |
| `Hex.Encode` | app/src/main/java/com/dharmikgohil/spendra/SmsParser.kt:103-104 | `"%02x"` joined over the digest gives exactly two lowercase hex digits per byte. |
| `Hex.DecodeEncode` | app/src/main/java/com/dharmikgohil/spendra/SmsParser.kt:103-104 | The hex rendering loses nothing: decoding it gives back the bytes. |
| `Hex.EncodePrefix` | app/src/main/java/com/dharmikgohil/spendra/SmsParser.kt:104-105 | The first 2n hex digits of a digest are the rendering of its first n bytes. |
| `SmsParser.Fingerprint` | app/src/main/java/com/dharmikgohil/spendra/SmsParser.kt:101-106 | The hash has exactly 32 characters, all in [0-9a-f], and it encodes exactly the first 16 digest bytes. |
| `SmsParser.ExtractBalance` | app/src/main/java/com/dharmikgohil/spendra/SmsParser.kt:80-83 | The balance is the converted amount after the first balance mention. It is null when there is none. With a faithful engine it is present exactly when a mention is found. |
| `SmsParser.FirstMatch` | app/src/main/java/com/dharmikgohil/spendra/SmsParser.kt:47-61 | The chosen pattern found a match, every earlier pattern found none, and there is no choice exactly when no pattern matches. |
| `SmsParser.CreateTransaction` | app/src/main/java/com/dharmikgohil/spendra/SmsParser.kt:85-99 | Null exactly when the amount does not convert. The merchant is the trimmed group cut to min(length, 50) with no leading blank. Type, source "UPI", clock, balance and hash are as given. |
| `SmsParser.ParseMessage` | app/src/main/java/com/dharmikgohil/spendra/SmsParser.kt:44-78 | Null without a case-insensitive "rs". Otherwise it parses exactly when a pattern matches with a valid amount. The fields come from the first matching pattern. The merchant is that pattern's counterparty group, trimmed and cut to 50 characters. |
| `SmsParser.LaterShapesIgnored` | app/src/main/java/com/dharmikgohil/spendra/SmsParser.kt:49-51 | Once a pattern matches, the later patterns are never consulted: engines that agree up to that pattern give the same result. |
| `SmsParser.ParsesIffSomeShapeMatches` | app/src/main/java/com/dharmikgohil/spendra/SmsParser.kt:45-77 | With faithful patterns, a message parses if and only if one of the three patterns matches it. |
| `SmsParser.MerchantComesFromMessage` | app/src/main/java/com/dharmikgohil/spendra/SmsParser.kt:87 | A parsed merchant is a contiguous piece of the message, at most 50 characters long. |
| `SmsParser.TypeMatchesKeyword` | app/src/main/java/com/dharmikgohil/spendra/SmsParser.kt:48-68 | DEBIT results come from messages containing "debited", and CREDIT results from messages containing "credited". |
| `SmsParser.ParseDependsOnlyOnMessage` | app/src/main/java/com/dharmikgohil/spendra/SmsParser.kt:90-98 | Every field except the timestamp is a function of the message, so equal messages give equal hashes. |
| `SmsParser.EmptyMerchantPossible` | app/src/main/java/com/dharmikgohil/spendra/SmsParser.kt:48 | With a faithful engine, "debited Rs 500 to  " parses to a debit of 500 rupees with an empty merchant: the first pattern captures one blank as the counterparty, and it trims to "". |
| `SmsReceiver.HasLetter` | app/src/main/java/com/dharmikgohil/spendra/SmsReceiver.kt:79 | `any { it.isLetter() }` holds exactly when some character is a letter. |
| `Text.LetterEnumerated` | app/src/main/java/com/dharmikgohil/spendra/SmsReceiver.kt:79 | A character counts as a letter exactly when it is one of the 52 listed Latin letters. |
| `SmsReceiver.IsBankMessage` | app/src/main/java/com/dharmikgohil/spendra/SmsReceiver.kt:78-80 | A sender is a bank sender if and only if it has exactly 6 characters and at least one letter. |
| `SmsReceiver.ToDto` | app/src/main/java/com/dharmikgohil/spendra/SmsReceiver.kt:82-90 | The pushed record carries the transaction's fields, its timestamp rendered as ISO-8601 and its hash, with no category. |
| `SmsReceiver.HandleMessage` | app/src/main/java/com/dharmikgohil/spendra/SmsReceiver.kt:33-73 | A null body or sender skips the message. A non-bank sender only sets the warning. A push happens exactly when the body parses, as a single-record request for that transaction. |
| `SmsReceiver.OnReceive` | app/src/main/java/com/dharmikgohil/spendra/SmsReceiver.kt:20-76 | Another action yields nothing. Otherwise there is one handling per message, in order: the i-th is that message's handling with the i-th clock reading. Each pushed request holds exactly one record, and no table is written. |
| `SmsReceiver.SenderDoesNotGate` | app/src/main/java/com/dharmikgohil/spendra/SmsReceiver.kt:41-47 | Whatever the non-null sender, the same body is pushed, or not pushed, with the same request. |
| `SmsReceiver.ReceiverAndReconcilerAgree` | app/src/main/java/com/dharmikgohil/spendra/SmsReceiver.kt:82-90 | The record the receiver pushes equals the record the reconciler would push for the same transaction once stored. |
| `SmsReceiver.BankSenderExamples` | app/src/main/java/com/dharmikgohil/spendra/SmsReceiver.kt:39-43 | "HDFCBK" is a bank sender. "123456" (no letter) and "01" (wrong length) are not. |
| `TransactionDao.NewTransactionEntity` | app/src/main/java/com/dharmikgohil/spendra/data/local/TransactionEntity.kt:7-18 | A new entity has id 0, no category and is unsynced. The balance is null unless given, and the other fields are as given. |
| `TransactionDao.InsertTransaction` | app/src/main/java/com/dharmikgohil/spendra/data/local/TransactionDao.kt:17-18 | IGNORE semantics. A taken explicit id leaves the table unchanged and returns -1. Otherwise exactly one row is added: id 0 gets the next AUTOINCREMENT id, and any other id is kept. The key stays unique. |
| `TransactionDao.GetUnsyncedTransactions` | app/src/main/java/com/dharmikgohil/spendra/data/local/TransactionDao.kt:14-15 | Returns exactly the rows with `isSynced = false`, in the model's rowid order. |
| `TransactionDao.SortByTimeDesc` | app/src/main/java/com/dharmikgohil/spendra/data/local/TransactionDao.kt:11 | The ordering is a permutation of its input, sorted by timestamp descending. |
| `TransactionDao.GetAllTransactions` | app/src/main/java/com/dharmikgohil/spendra/data/local/TransactionDao.kt:11-12 | Returns every row exactly once, most recent first. |
| `TransactionDao.GetTotalSpentSince` | app/src/main/java/com/dharmikgohil/spendra/data/local/TransactionDao.kt:23-24 | Null exactly when no DEBIT row has timestamp ≥ start. Otherwise it is the sum over those rows. |
| `TransactionDao.MarkAsSynced` | app/src/main/java/com/dharmikgohil/spendra/data/local/TransactionDao.kt:20-21 | A row becomes synced exactly when its id is listed. No other row or field changes. |
| `TransactionDao.MarkAllAsUnsynced` | app/src/main/java/com/dharmikgohil/spendra/ui/HomeViewModel.kt:58 | Every row becomes unsynced, and nothing else changes. |
| `TransactionDao.UpdateCategory` | app/src/main/java/com/dharmikgohil/spendra/data/local/TransactionDao.kt:26-27 | Every row with the hash gets the category. No other row or field changes. |
| `TransactionDao.FreshEntityIsInserted` | app/src/main/java/com/dharmikgohil/spendra/data/local/TransactionEntity.kt:8 | A freshly built entity (id 0) is never ignored. It adds one row under a new, largest id. |
| `TransactionDao.HashIsNotUnique` | app/src/main/java/com/dharmikgohil/spendra/data/local/TransactionEntity.kt:8-15 | `rawTextHash` is not a key: inserting the same fresh entity twice stores two rows with one hash. |
| `TransactionDao.InsertIgnoreIdempotent` | app/src/main/java/com/dharmikgohil/spendra/data/local/TransactionDao.kt:17 | Repeating an explicit-id insert changes nothing the second time and returns -1. |
| `TransactionDao.MarkAsSyncedShrinksUnsynced` | app/src/main/java/com/dharmikgohil/spendra/data/local/TransactionDao.kt:14-21 | After marking, the unsynced rows are exactly those that were unsynced and whose id was not listed. |
| `TransactionDao.MarkAsSyncedIdempotent` | app/src/main/java/com/dharmikgohil/spendra/data/local/TransactionDao.kt:20-21 | Marking the same ids twice equals marking them once. |
| `TransactionDao.MarkUnknownIdsIsNoOp` | app/src/main/java/com/dharmikgohil/spendra/data/local/TransactionDao.kt:20-21 | Ids that name no row leave the table unchanged. |
| `TransactionDao.UpdateCategoryLastWins` | app/src/main/java/com/dharmikgohil/spendra/data/local/TransactionDao.kt:26-27 | Two updates of one hash keep only the second category. |
| `TransactionDao.SpentSumAppend` | app/src/main/java/com/dharmikgohil/spendra/data/local/TransactionDao.kt:23 | A row adds its amount to the total exactly when it is a DEBIT at or after the start. CREDIT rows never contribute. |
| `TransactionDao.SpentSumNonIncreasing` | app/src/main/java/com/dharmikgohil/spendra/data/local/TransactionDao.kt:23 | With non-negative amounts, a later start never gives a larger sum, and the sum is non-negative. |
| `TransactionDao.TotalSpentNonIncreasing` | app/src/main/java/com/dharmikgohil/spendra/data/local/TransactionDao.kt:23-24 | With non-negative amounts, the query is non-increasing in its start time (null read as 0). A total at a later start implies one at an earlier start. |
| `HomeViewModel.ApplyCorrections` | app/src/main/java/com/dharmikgohil/spendra/ui/HomeViewModel.kt:87-91 | Each row's category becomes the category of the last item that has both a hash equal to the row's hash and a category. With no such item the category is unchanged. Items missing either field are skipped. |
| `HomeViewModel.BuildRequest` | app/src/main/java/com/dharmikgohil/spendra/ui/HomeViewModel.kt:63-80 | One record per unsynced row, in the same order. Each record copies amount, type, merchant, source, hash and balance, renders the timestamp and sends a null category. |
| `HomeViewModel.Settle` | app/src/main/java/com/dharmikgohil/spendra/ui/HomeViewModel.kt:82-91 | On success every pushed row becomes synced and takes its corrected category. On failure the table is unchanged. |
| `HomeViewModel.SyncTransactions` | app/src/main/java/com/dharmikgohil/spendra/ui/HomeViewModel.kt:55-100 | The request is absent exactly when the table is empty, and otherwise mirrors every row. On success all rows end synced with corrected categories. On a failure response or a failed remote call all rows end unsynced with unchanged categories. No other field changes. |
| `HomeViewModel.ResetSelectsEveryRow` | app/src/main/java/com/dharmikgohil/spendra/ui/HomeViewModel.kt:58-60 | After the reset, the model's unsynced query returns the whole table in the model's rowid order, so the push is always everything. |
| `HomeViewModel.AllUnsyncedSelected` | app/src/main/java/com/dharmikgohil/spendra/data/local/TransactionDao.kt:14-15 | When no row is synced, the model's unsynced query returns the whole table in the model's rowid order. |
| `HomeViewModel.EmptyTableSkipsRemote` | app/src/main/java/com/dharmikgohil/spendra/ui/HomeViewModel.kt:61 | With an empty table, no request is made and the outcome is irrelevant. |
| `HomeViewModel.SyncRetryIsIdempotent` | app/src/main/java/com/dharmikgohil/spendra/ui/HomeViewModel.kt:55-100 | Syncing again with the same outcome leaves the table as the first sync left it. |
| `HomeViewModel.FailedAttemptIsHarmless` | app/src/main/java/com/dharmikgohil/spendra/ui/HomeViewModel.kt:82-99 | After a failed attempt, a later sync ends in the same table as if the failed attempt had never happened. |
| `Insights.DoubleToInt` | app/src/main/java/com/dharmikgohil/spendra/ui/InsightsScreen.kt:399-406 | `Double.toInt()` rounds toward zero inside the 32-bit range and saturates to the nearest bound outside it. |
| `Insights.AbsInt` | app/src/main/java/com/dharmikgohil/spendra/ui/InsightsScreen.kt:406 | `kotlin.math.abs` on an Int is non-negative, except for `Int.MIN_VALUE`, which it returns unchanged. |
| `Insights.FindPrevious` | app/src/main/java/com/dharmikgohil/spendra/ui/InsightsScreen.kt:394 | Returns the first previous item with the same category id, or nothing exactly when there is none. |
| `Insights.ItemInsight` | app/src/main/java/com/dharmikgohil/spendra/ui/InsightsScreen.kt:393-411 | ALERT if and only if there is a previous item and the increase is over 1000. SAVING if and only if the increase is below -500. Nothing if and only if there is no previous item or the increase is in [-500, 1000]. Never HABIT. |
| `Insights.SpikeInsightText` | app/src/main/java/com/dharmikgohil/spendra/ui/InsightsScreen.kt:396-402 | An ALERT is the "Spending Spike" insight naming the truncated increase. |
| `Insights.SavingInsightText` | app/src/main/java/com/dharmikgohil/spendra/ui/InsightsScreen.kt:403-409 | A SAVING is the "Great Saving!" insight naming the magnitude of the truncated increase. |
| `Insights.LoopInsights` | app/src/main/java/com/dharmikgohil/spendra/ui/InsightsScreen.kt:392-412 | At most one insight per current item, and none of them is HABIT. |
| `Insights.LoopInsightsEmpty` | app/src/main/java/com/dharmikgohil/spendra/ui/InsightsScreen.kt:392-412 | The loop produces nothing exactly when no current item yields an insight. |
| `Insights.LoopInsightsAppend` | app/src/main/java/com/dharmikgohil/spendra/ui/InsightsScreen.kt:392 | Insights appear in current-list order: appending an item appends its insight, if any. |
| `Insights.TopIndex` | app/src/main/java/com/dharmikgohil/spendra/ui/InsightsScreen.kt:418 | `maxBy { it.total }` picks an item of maximal total, and it is the first such item. |
| `Insights.GenerateInsights` | app/src/main/java/com/dharmikgohil/spendra/ui/InsightsScreen.kt:388-425 | An empty current list gives an empty result. Otherwise the loop insights are returned when there are any. A HABIT insight appears if and only if the loop produced none and current is non-empty. It is then the single insight and names the first category of maximal total, as `maxBy` picks it. |
| `Insights.HealthScore` | app/src/main/java/com/dharmikgohil/spendra/ui/InsightsScreen.kt:42-46 | The score is in [0, 100]. It is 100 when nothing is spent and 0 once spending reaches the 30000 budget. |
| `Insights.PulseStatus` | app/src/main/java/com/dharmikgohil/spendra/ui/InsightsScreen.kt:155-159 | "Excellent!" exactly above 80, "On Track" exactly from 51 to 80, "Needs Attention" exactly at 50 or below. |
| `Insights.HealthScoreNonIncreasing` | app/src/main/java/com/dharmikgohil/spendra/ui/InsightsScreen.kt:42-46 | Spending more never raises the score. |
| `Insights.StatusBands` | app/src/main/java/com/dharmikgohil/spendra/ui/InsightsScreen.kt:155-159 | Through the score thresholds 80 and 50, the status is "Excellent!" for spending up to 5700, "On Track" up to 14700 and "Needs Attention" beyond. |
| `Budgets.Survivors` | app/src/main/java/com/dharmikgohil/spendra/data/local/BudgetEntity.kt:9-12 | The rows REPLACE keeps are exactly those sharing neither the id nor the unique triple with the new row. Keeping them preserves both keys. |
| `Budgets.InsertBudget` | app/src/main/java/com/dharmikgohil/spendra/data/local/BudgetDao.kt:10-11 | Afterwards b is present and every row sharing b's id or triple is gone. The other rows are kept unchanged, and id and triple uniqueness are preserved. |
| `Budgets.InsertBudgetIdempotent` | app/src/main/java/com/dharmikgohil/spendra/data/local/BudgetDao.kt:10-11 | Inserting the same budget twice equals inserting it once, so no second row is ever added. |
| `Budgets.InsertBudgetKeyUnique` | app/src/main/java/com/dharmikgohil/spendra/data/local/BudgetEntity.kt:9 | After an insert, the only row with b's triple or id is b: a new budget for an existing triple replaces the old one. |
| `Budgets.GetBudgets` | app/src/main/java/com/dharmikgohil/spendra/data/local/BudgetDao.kt:13-14 | Returns exactly the rows of the user. |
| `Budgets.GetBudgetByCategory` | app/src/main/java/com/dharmikgohil/spendra/data/local/BudgetDao.kt:16-17 | Returns a row of that user and category, or null exactly when none exists. |
| `Budgets.AssociateBy` | app/src/main/java/com/dharmikgohil/spendra/ui/BudgetViewModel.kt:50 | Maps each category present to its last row in the list, and nothing else. |
| `Budgets.LoadBudgets` | app/src/main/java/com/dharmikgohil/spendra/ui/BudgetViewModel.kt:41-69 | Exactly seven states in the fixed category order. Id and name are the category, spent is 0.0 and the period is MONTHLY. The budget is the amount of the last returned row of that category, or 0.0. Categories outside the list never appear. |
| `Budgets.SetBudget` | app/src/main/java/com/dharmikgohil/spendra/ui/BudgetViewModel.kt:71-85 | Stores a MONTHLY row for the user (by default the fixed "user_1") with the given id and clock readings. Every older row with that id or that (user, category, MONTHLY) is dropped, and the keys stay unique. |
| `Budgets.SetBudgetThenLoad` | app/src/main/java/com/dharmikgohil/spendra/ui/BudgetViewModel.kt:71-85 | If the user's budgets for the category were all MONTHLY, a reload shows the new amount for it, in whatever order the query returns the rows. |
| `Budgets.SetBudgetThenLookup` | app/src/main/java/com/dharmikgohil/spendra/data/local/BudgetDao.kt:16-17 | Under the same condition, the category lookup returns exactly the new row. |
| `Goals.LoadGoals` | app/src/main/java/com/dharmikgohil/spendra/ui/GoalsViewModel.kt:31-35 | Returns exactly the stored goals of the user. |
| `Goals.AddGoal` | app/src/main/java/com/dharmikgohil/spendra/ui/GoalsViewModel.kt:37-54 | Adds one goal under the fresh id for the user: current amount 0, no deadline, not completed, the given icon and clock readings. Other goals are untouched. |
| `Goals.AddGoalDefaultIcon` | app/src/main/java/com/dharmikgohil/spendra/ui/GoalsViewModel.kt:37 | A goal added without an icon stores the target emoji "🎯". |
| `Goals.AddSavings` | app/src/main/java/com/dharmikgohil/spendra/ui/GoalsViewModel.kt:56-66 | An unknown id changes nothing. Otherwise the current amount grows by exactly the amount (with no sign check) and `updatedAt` is stamped. Every other field, `isCompleted` included, and every other goal is unchanged. |
| `Goals.AddSavingsAdditive` | app/src/main/java/com/dharmikgohil/spendra/ui/GoalsViewModel.kt:59-62 | Two deposits equal one deposit of their sum. |
| `Goals.DepositIntoNewGoal` | app/src/main/java/com/dharmikgohil/spendra/ui/GoalsViewModel.kt:44-62 | A new goal after one deposit holds exactly that deposit and is still not completed, whatever its target. |
| `Goals.AddSavingsKeepsOtherUsers` | app/src/main/java/com/dharmikgohil/spendra/ui/GoalsViewModel.kt:56-66 | A deposit to another user's goal does not change what this user's goal list shows. |

## Left out

- I/O and platform services are parameters: the broadcast intent, the device id, `System.currentTimeMillis`, `UUID.randomUUID`, `Instant.toString` and the remote API. Logging is left out.
- Coroutines, `viewModelScope`, StateFlow and Room's `Flow` are left out. Every operation is one sequential step, and concurrent receivers and syncs are not modelled.
- The Java regex engine and SHA-256 are not implemented. `SmsParser.RegexSound` states what the parser relies on. The lazy-quantifier details of which span a pattern captures are not modelled.
- Compose UI is left out: all screens, the composables of the insights screen, and `formatDate`.
- `ApiClient`, `NetworkModule`, `SpendraApi` and `AppDatabase` are framework singletons and are not modelled.
- The second remote call after a successful sync (`getDailySummary`) only refreshes screen state and is not modelled.
- The goal table's DAO is not part of this model. `insertGoal` is taken to replace by primary key, since `addSavings` relies on that, and `getGoals` is modelled as an unordered set.
- Kotlin `Double` arithmetic is replaced by exact `real` arithmetic and integer paise. NaN, infinities and rounding are not modelled. A band boundary of `Insights.StatusBands` may move by one score step under floating-point rounding.
- `Insights.StatusBands`: the bands hold for exact arithmetic only.
- `SmsParser.ParseMessage`: the amount conversion is defined on pattern tokens only. The engine's amount group is checked to be a token instead of modelling `toDoubleOrNull` on arbitrary text.
- Strings are sequences of Unicode scalar values. Kotlin strings are UTF-16, so `take(50)` and `length == 6` can differ on characters outside the Basic Multilingual Plane.
- `SmsReceiver.IsBankMessage`: letters are ASCII letters only, whereas `Char.isLetter` also accepts letters of other scripts.
- `SmsReceiver.HasLetter`: only the 52 ASCII letters count, whereas `Char.isLetter` also accepts letters of other scripts, such as "é" or Devanagari letters.
- `Goals.AddSavingsAdditive`: holds for exact reals only. Kotlin `Double` addition is not associative; for example 1e16 + 1.0 + 1.0 is not 1e16 + 2.0.
- `HomeViewModel.SyncTransactions`: assumes every table call succeeds. The code's single `catch` also swallows storage failures. A failure after `markAsSynced` (say in `updateCategory`) leaves the rows synced with only some categories corrected. Before SQLite 3.32 an `IN (:ids)` list of more than 999 ids fails this way. The model promises nothing about these partial states.
- `TransactionDao.GetUnsyncedTransactions`: the query has no ORDER BY, so SQLite does not promise an order. The model returns the rows in rowid order, as a plain table scan does. `HomeViewModel.SyncTransactions` relies on this to pair request record i with table row i. The resulting table does not depend on the order, since rows are marked by id and corrected by hash, but the order of the records sent does.
- Budget period values (MONTHLY, WEEKLY, YEARLY) are a comment in the entity and are not enforced by the table. The model stores any string, and only MONTHLY is ever written.
- `Budgets.SetBudget` takes two clock readings for `createdAt` and `updatedAt`, because the code reads the clock twice. The two are equal only when both readings are.
- Where the code and its test file disagree, the model follows the code. The code has no merchant cleaning, no `category` on `Transaction`, no "Cash Withdrawal" or card-spend shapes, and no credits without "from".
- Three places do not compile as written, and the model takes their evident intent:
  - `markAllAsUnsynced` sets `isSynced = false` on every row;
  - `response.data` is an optional list of (hash, category) items;
  - the reconciler's DTO has a `category` field, sent as null.
- Three behaviours follow the code where one might expect otherwise:
  - the amount 0 is accepted;
  - the source is always "UPI";
  - the transaction table does not deduplicate by hash.

=== FILE: Amount.dfy ===
/**
 Monetary amounts as matched by the parser: the token `\d+(\.\d{2})?`,
 read into integer paise (hundredths of a rupee), so no floating point is
 needed and "at most two fractional digits" holds by construction.
 */
module Amount {
  import opened Wrappers
  import opened Decimal

  /** The regular-expression group `(\d+(?:\.\d{2})?)`. */
  predicate IsAmountToken(t: string) {
    || (|t| > 0 && AllDigits(t))
    || (|t| > 3 && t[|t| - 3] == '.' && AllDigits(t[..|t| - 3]) && AllDigits(t[|t| - 2..]))
  }

  /**
   `toDoubleOrNull()` applied to a matched amount group, in paise.
   Every amount token parses; any other text yields None.
   */
  function ParseAmount(t: string): (r: Option<nat>)
    ensures r.Some? <==> IsAmountToken(t)
  {
    if |t| > 0 && AllDigits(t) then
      Some(DigitsValue(t) * 100)
    else if |t| > 3 && t[|t| - 3] == '.' && AllDigits(t[..|t| - 3]) && AllDigits(t[|t| - 2..]) then
      Some(DigitsValue(t[..|t| - 3]) * 100 + DigitsValue(t[|t| - 2..]))
    else
      None
  }

  /** Renders paise as a token "R.PP" with exactly two fractional digits. */
  function FormatPaise(p: nat): (t: string)
    ensures IsAmountToken(t)
  {
    var whole := NatToDigits(p / 100);
    var frac := [DigitChar((p % 100) / 10), DigitChar(p % 10)];
    assert (whole + "." + frac)[..|whole + "." + frac| - 3] == whole;
    assert (whole + "." + frac)[|whole + "." + frac| - 2..] == frac;
    whole + "." + frac
  }

  /** Every paise value is represented by some amount token, and reads back exactly. */
  lemma AmountRoundTrip(p: nat)
    ensures ParseAmount(FormatPaise(p)) == Some(p)
  {
    var whole := NatToDigits(p / 100);
    var frac := [DigitChar((p % 100) / 10), DigitChar(p % 10)];
    var t := whole + "." + frac;
    assert t[..|t| - 3] == whole;
    assert t[|t| - 2..] == frac;
    assert !AllDigits(t) by { assert !IsDigit(t[|t| - 3]); }
    DigitsRoundTrip(p / 100);
    assert frac[..1] == [DigitChar((p % 100) / 10)];
    assert DigitsValue(frac) == ((p % 100) / 10) * 10 + p % 10 by {
      var hi := [DigitChar((p % 100) / 10)];
      assert hi[..0] == [];
      assert DigitsValue(hi) == (p % 100) / 10;
      assert frac[..|frac| - 1] == hi;
      assert DigitValue(frac[1]) == p % 10;
    }
  }

  /** A whole-rupee token and its ".00" form denote the same amount. */
  lemma WholeAndCentsAgree(d: string)
    requires |d| > 0 && AllDigits(d)
    ensures ParseAmount(d + ".00") == ParseAmount(d)
  {
    var t := d + ".00";
    assert t[..|t| - 3] == d;
    assert t[|t| - 2..] == "00";
    assert !IsDigit(t[|t| - 3]);
    assert "00"[..1] == "0";
    assert "0"[..0] == [];
    assert DigitsValue("00") == 0;
  }

  /**
   `toDoubleOrNull()` ignores leading zeros: "0500" reads as 500. With
   `AmountRoundTrip` and `WholeAndCentsAgree` this pins the value of every
   token, since each one is a canonical rendering with zeros prepended.
   */
  lemma LeadingZeroIgnored(t: string)
    requires IsAmountToken(t)
    ensures ParseAmount("0" + t) == ParseAmount(t)
  {
    var u := "0" + t;
    if |t| > 0 && AllDigits(t) {
      LeadingZeroValue(t);
    } else {
      var w := t[..|t| - 3];
      assert u[..|u| - 3] == "0" + w;
      assert u[|u| - 2..] == t[|t| - 2..];
      assert u[|u| - 3] == '.';
      assert !IsDigit(u[|u| - 3]);
      LeadingZeroValue(w);
    }
  }
}

=== FILE: Budgets.dfy ===
/**
 The budget table (a Room entity with a text primary key and a unique
 index on user, category and period, written with REPLACE) and the budget
 screen's view model: `loadBudgets` and `setBudget`. Amounts are `real`
 rupees; timestamps are epoch milliseconds.
 */
module Budgets {
  import opened Wrappers

  datatype BudgetEntity = BudgetEntity(
    id: string,
    userId: string,
    categoryId: string,
    amount: real,
    period: string,
    createdAt: int,
    updatedAt: int)

  datatype CategoryBudgetState = CategoryBudgetState(
    categoryId: string,
    categoryName: string,
    spent: real,
    budget: real,
    period: string)

  const Monthly := "MONTHLY"
  /** The fixed user the budget screen acts for, and `SetBudget`'s default. */
  const DefaultUserId := "user_1"

  /** The fixed category list of `loadBudgets`. */
  const Categories: seq<string> := ["Food", "Transport", "Shopping", "Bills", "Entertainment", "Health", "Other"]

  // ---------------------------------------------------------------------
  // The table
  // ---------------------------------------------------------------------

  /** The columns of the unique index. */
  function Key(b: BudgetEntity): (string, string, string) {
    (b.userId, b.categoryId, b.period)
  }

  /** Two rows that REPLACE cannot keep together: same primary key or same unique key. */
  predicate Conflicts(a: BudgetEntity, b: BudgetEntity) {
    a.id == b.id || Key(a) == Key(b)
  }

  /** Rows in rowid order; the primary key and the unique index hold. */
  predicate Valid(rows: seq<BudgetEntity>) {
    forall i, j :: 0 <= i < j < |rows| ==> !Conflicts(rows[i], rows[j])
  }

  /** The rows that survive the deletions REPLACE makes for `b`, in their order. */
  function Survivors(rows: seq<BudgetEntity>, b: BudgetEntity): (r: seq<BudgetEntity>)
    ensures |r| <= |rows|
    ensures forall x :: x in r <==> x in rows && !Conflicts(x, b)
    ensures Valid(rows) ==> Valid(r)
  {
    if |rows| == 0 then []
    else
      var rest := Survivors(rows[1..], b);
      assert forall x :: x in rows[1..] ==> x in rows;
      if Conflicts(rows[0], b) then rest
      else
        assert Valid(rows) ==> forall x :: x in rows[1..] ==> !Conflicts(rows[0], x) by {
          if Valid(rows) {
            forall x | x in rows[1..] ensures !Conflicts(rows[0], x) {
              var j :| 0 <= j < |rows[1..]| && rows[1..][j] == x;
              assert rows[j + 1] == x;
            }
          }
        }
        assert Valid(rows) ==> Valid(rows[1..]) by {
          if Valid(rows) {
            forall i, j | 0 <= i < j < |rows[1..]| ensures !Conflicts(rows[1..][i], rows[1..][j]) {
              assert rows[1..][i] == rows[i + 1] && rows[1..][j] == rows[j + 1];
            }
          }
        }
        [rows[0]] + rest
  }

  /**
   `insertBudget` (REPLACE): every row that clashes with `b` on the primary
   key or on the unique index is deleted, then `b` is appended with a fresh
   rowid.
   */
  function InsertBudget(rows: seq<BudgetEntity>, b: BudgetEntity): (r: seq<BudgetEntity>)
    ensures |r| > 0 && r[|r| - 1] == b
    ensures forall x :: x in r[..|r| - 1] <==> x in rows && !Conflicts(x, b)
    ensures |r| <= |rows| + 1
    ensures Valid(rows) ==> Valid(r)
  {
    var kept := Survivors(rows, b);
    var r := kept + [b];
    assert r[..|r| - 1] == kept;
    assert Valid(rows) ==> Valid(r) by {
      if Valid(rows) {
        forall i, j | 0 <= i < j < |r| ensures !Conflicts(r[i], r[j]) {
          if j == |r| - 1 {
            assert r[i] in kept;
          }
        }
      }
    }
    r
  }

  /** `getBudgets(userId)`, listed in rowid order. */
  function GetBudgets(rows: seq<BudgetEntity>, userId: string): (r: seq<BudgetEntity>)
    ensures forall x :: x in r <==> x in rows && x.userId == userId
  {
    if |rows| == 0 then []
    else
      var rest := GetBudgets(rows[1..], userId);
      assert forall x :: x in rows <==> x == rows[0] || x in rows[1..];
      if rows[0].userId == userId then [rows[0]] + rest else rest
  }

  /** `getBudgetByCategory(userId, categoryId)`: the first matching row. */
  function GetBudgetByCategory(rows: seq<BudgetEntity>, userId: string, categoryId: string): (r: Option<BudgetEntity>)
    ensures r.None? <==> forall x :: x in rows ==> x.userId != userId || x.categoryId != categoryId
    ensures r.Some? ==> r.value in rows && r.value.userId == userId && r.value.categoryId == categoryId
  {
    if |rows| == 0 then None
    else if rows[0].userId == userId && rows[0].categoryId == categoryId then Some(rows[0])
    else
      assert forall x :: x in rows <==> x == rows[0] || x in rows[1..];
      GetBudgetByCategory(rows[1..], userId, categoryId)
  }

  // ---------------------------------------------------------------------
  // The view model
  // ---------------------------------------------------------------------

  /** The position of the last row of the category, or -1 when there is none. */
  function LastIndexOf(budgets: seq<BudgetEntity>, categoryId: string): (k: int)
    ensures -1 <= k < |budgets|
    ensures k >= 0 ==> budgets[k].categoryId == categoryId
    ensures forall j :: k < j < |budgets| ==> budgets[j].categoryId != categoryId
  {
    if |budgets| == 0 then -1
    else if budgets[|budgets| - 1].categoryId == categoryId then |budgets| - 1
    else LastIndexOf(budgets[..|budgets| - 1], categoryId)
  }

  /**
   Kotlin's `associateBy { it.categoryId }`: a map from each category to the
   LAST row carrying it.
   */
  function AssociateBy(budgets: seq<BudgetEntity>): (m: map<string, BudgetEntity>)
    ensures forall c :: c in m <==> LastIndexOf(budgets, c) >= 0
    ensures forall c :: c in m ==> m[c] == budgets[LastIndexOf(budgets, c)]
  {
    if |budgets| == 0 then map[]
    else
      var n := |budgets| - 1;
      var init := AssociateBy(budgets[..n]);
      assert forall c :: c != budgets[n].categoryId ==> LastIndexOf(budgets, c) == LastIndexOf(budgets[..n], c);
      init[budgets[n].categoryId := budgets[n]]
  }

  /** The state shown for one category: spent is a placeholder 0, the budget the mapped amount or 0. */
  function CategoryState(budgetMap: map<string, BudgetEntity>, category: string): CategoryBudgetState {
    var budget := if category in budgetMap then budgetMap[category].amount else 0.0;
    CategoryBudgetState(category, category, 0.0, budget, Monthly)
  }

  /**
   `loadBudgets`, given the rows `getBudgets` returned: one state per fixed
   category, in the fixed order, whose budget is the amount of the last
   returned row of that category, or 0 when there is none.
   */
  function LoadBudgets(budgets: seq<BudgetEntity>): (r: seq<CategoryBudgetState>)
    ensures |r| == |Categories|
    ensures forall i :: 0 <= i < |r| ==>
              && r[i].categoryId == Categories[i] && r[i].categoryName == Categories[i]
              && r[i].spent == 0.0 && r[i].period == Monthly
    ensures forall i :: 0 <= i < |r| ==>
              r[i].budget == (if LastIndexOf(budgets, Categories[i]) < 0 then 0.0
                              else budgets[LastIndexOf(budgets, Categories[i])].amount)
  {
    var budgetMap := AssociateBy(budgets);
    seq(|Categories|, i requires 0 <= i < |Categories| => CategoryState(budgetMap, Categories[i]))
  }

  /**
   `setBudget(categoryId, amount)`: a new MONTHLY row for the view model's
   user, with a fresh identifier and two clock readings, inserted with REPLACE.
   The identifier and the clock readings are parameters.
   */
  function SetBudget(rows: seq<BudgetEntity>, userId: string := DefaultUserId, categoryId: string, amount: real,
                     uuid: string, createdAt: int, updatedAt: int): (r: seq<BudgetEntity>)
    ensures |r| > 0
    ensures r[|r| - 1] == BudgetEntity(uuid, userId, categoryId, amount, Monthly, createdAt, updatedAt)
    ensures forall x :: x in r[..|r| - 1] <==>
              x in rows && x.id != uuid && !(x.userId == userId && x.categoryId == categoryId && x.period == Monthly)
    ensures Valid(rows) ==> Valid(r)
  {
    InsertBudget(rows, BudgetEntity(uuid, userId, categoryId, amount, Monthly, createdAt, updatedAt))
  }

  // ---------------------------------------------------------------------
  // Properties
  // ---------------------------------------------------------------------

  /** Removing the rows that clash with `b` twice removes nothing more. */
  lemma {:induction false} SurvivorsIdempotent(rows: seq<BudgetEntity>, b: BudgetEntity)
    ensures Survivors(Survivors(rows, b), b) == Survivors(rows, b)
  {
    if |rows| > 0 {
      SurvivorsIdempotent(rows[1..], b);
    }
  }

  /** Rows appended after `rows` are filtered on their own. */
  lemma {:induction false} SurvivorsAppend(rows: seq<BudgetEntity>, extra: seq<BudgetEntity>, b: BudgetEntity)
    ensures Survivors(rows + extra, b) == Survivors(rows, b) + Survivors(extra, b)
  {
    if |rows| == 0 {
      assert rows + extra == extra;
    } else {
      assert (rows + extra)[0] == rows[0];
      assert (rows + extra)[1..] == rows[1..] + extra;
      SurvivorsAppend(rows[1..], extra, b);
    }
  }

  /** Inserting the same budget twice leaves the table as one insert did. */
  lemma InsertBudgetIdempotent(rows: seq<BudgetEntity>, b: BudgetEntity)
    ensures InsertBudget(InsertBudget(rows, b), b) == InsertBudget(rows, b)
  {
    var once := InsertBudget(rows, b);
    SurvivorsAppend(Survivors(rows, b), [b], b);
    SurvivorsIdempotent(rows, b);
    assert Survivors([b], b) == [];
    assert Survivors(once, b) == Survivors(rows, b);
  }

  /** After an insert the unique key of `b` names exactly one row, `b`. */
  lemma InsertBudgetKeyUnique(rows: seq<BudgetEntity>, b: BudgetEntity, x: BudgetEntity)
    requires x in InsertBudget(rows, b)
    requires Key(x) == Key(b) || x.id == b.id
    ensures x == b
  {
  }

  /**
   When the user's budgets for the category were all MONTHLY (the only period
   the app writes), reloading after `setBudget` shows the new amount for that
   category, whatever order the query returns the rows in.
   */
  lemma SetBudgetThenLoad(rows: seq<BudgetEntity>, userId: string, c: nat, amount: real,
                          uuid: string, createdAt: int, updatedAt: int, result: seq<BudgetEntity>)
    requires c < |Categories|
    requires forall x :: x in rows && x.userId == userId && x.categoryId == Categories[c] ==> x.period == Monthly
    requires multiset(result) ==
               multiset(GetBudgets(SetBudget(rows, userId, Categories[c], amount, uuid, createdAt, updatedAt), userId))
    ensures LoadBudgets(result)[c].budget == amount
  {
    var b := BudgetEntity(uuid, userId, Categories[c], amount, Monthly, createdAt, updatedAt);
    var after := SetBudget(rows, userId, Categories[c], amount, uuid, createdAt, updatedAt);
    assert b in after;
    assert b in result by {
      assert b in multiset(GetBudgets(after, userId));
    }
    forall x | x in result && x.categoryId == Categories[c] ensures x == b {
      assert x in multiset(GetBudgets(after, userId));
      assert x in after;
    }
    var j :| 0 <= j < |result| && result[j] == b;
    var k := LastIndexOf(result, Categories[c]);
    assert result[k] in result;
  }

  /** Under the same condition the category lookup finds exactly the new row. */
  lemma SetBudgetThenLookup(rows: seq<BudgetEntity>, userId: string, categoryId: string, amount: real,
                            uuid: string, createdAt: int, updatedAt: int)
    requires forall x :: x in rows && x.userId == userId && x.categoryId == categoryId ==> x.period == Monthly
    ensures GetBudgetByCategory(SetBudget(rows, userId, categoryId, amount, uuid, createdAt, updatedAt), userId, categoryId)
              == Some(BudgetEntity(uuid, userId, categoryId, amount, Monthly, createdAt, updatedAt))
  {
    var after := SetBudget(rows, userId, categoryId, amount, uuid, createdAt, updatedAt);
    var found := GetBudgetByCategory(after, userId, categoryId);
    assert after[|after| - 1] in after;
  }
}

=== FILE: Decimal.dfy ===
/**
 Decimal digit strings: the `\d` runs matched by the parser's regular
 expressions (Java's `\d` is ASCII `[0-9]`), their values, and the decimal
 rendering Kotlin uses when an `Int` is interpolated into a string.
 */
module Decimal {

  predicate IsDigit(c: char) {
    '0' <= c <= '9'
  }

  predicate AllDigits(s: string) {
    forall i :: 0 <= i < |s| ==> IsDigit(s[i])
  }

  function DigitValue(c: char): (d: nat)
    requires IsDigit(c)
    ensures d < 10
  {
    (c as int) - ('0' as int)
  }

  function DigitChar(d: nat): (c: char)
    requires d < 10
    ensures IsDigit(c) && DigitValue(c) == d
  {
    (('0' as int) + d) as char
  }

  /** The value of a digit string read most-significant digit first; "" reads as 0. */
  function DigitsValue(s: string): nat
    requires AllDigits(s)
  {
    if |s| == 0 then 0 else DigitsValue(s[..|s| - 1]) * 10 + DigitValue(s[|s| - 1])
  }

  /** A leading zero does not change the value of a digit string. */
  lemma {:induction false} LeadingZeroValue(d: string)
    requires AllDigits(d)
    ensures AllDigits("0" + d) && DigitsValue("0" + d) == DigitsValue(d)
    decreases |d|
  {
    var u := "0" + d;
    assert AllDigits(u) by {
      forall i | 0 <= i < |u| ensures IsDigit(u[i]) {
        if i > 0 { assert u[i] == d[i - 1]; }
      }
    }
    if |d| == 0 {
      assert u[..0] == "";
    } else {
      var init := d[..|d| - 1];
      assert AllDigits(init) by {
        forall i | 0 <= i < |init| ensures IsDigit(init[i]) { assert init[i] == d[i]; }
      }
      LeadingZeroValue(init);
      assert u[..|u| - 1] == "0" + init;
      assert u[|u| - 1] == d[|d| - 1];
    }
  }

  /** The shortest decimal rendering of `n` (Kotlin's `n.toString()` for n >= 0). */
  function NatToDigits(n: nat): (s: string)
    ensures |s| > 0 && AllDigits(s)
    ensures |s| > 1 ==> s[0] != '0'
  {
    if n < 10 then [DigitChar(n)] else NatToDigits(n / 10) + [DigitChar(n % 10)]
  }

  /** Reading back the rendering of `n` gives `n`. */
  lemma {:induction false} DigitsRoundTrip(n: nat)
    ensures DigitsValue(NatToDigits(n)) == n
  {
    if n >= 10 {
      var s := NatToDigits(n);
      assert s[..|s| - 1] == NatToDigits(n / 10);
      DigitsRoundTrip(n / 10);
    }
  }
}

=== FILE: Goals.dfy ===
/**
 The savings goals view model: `addGoal` and `addSavings`. The goal table's
 DAO is not part of this model; its `insertGoal` is taken to replace a row
 with the same primary key, so the table is a map from goal id to goal.
 Amounts are `real` rupees; timestamps are epoch milliseconds.
 */
module Goals {
  import opened Wrappers

  datatype GoalEntity = GoalEntity(
    id: string,
    userId: string,
    name: string,
    targetAmount: real,
    currentAmount: real,
    deadline: Option<int>,
    icon: Option<string>,
    isCompleted: bool,
    createdAt: int,
    updatedAt: int)

  type GoalTable = map<string, GoalEntity>

  /** The default icon of `addGoal`, a direct hit. */
  const DefaultIcon := "\U{1F3AF}"

  /** Every goal is stored under its own id. */
  predicate Valid(goals: GoalTable) {
    forall id :: id in goals ==> goals[id].id == id
  }

  /** `getGoals(userId)`, as a set: the DAO's row order is not part of this model. */
  function LoadGoals(goals: GoalTable, userId: string): (r: set<GoalEntity>)
    ensures forall g :: g in r <==> g in goals.Values && g.userId == userId
  {
    set g | g in goals.Values && g.userId == userId
  }

  /**
   `addGoal(name, targetAmount, icon)`: a new goal with nothing saved yet, no
   deadline, not completed, stored under a fresh identifier. The identifier
   and the two clock readings are parameters.
   */
  function AddGoal(goals: GoalTable, userId: string, name: string, targetAmount: real, icon: string := DefaultIcon,
                   uuid: string, createdAt: int, updatedAt: int): (r: GoalTable)
    ensures uuid in r && r.Keys == goals.Keys + {uuid}
    ensures r[uuid].id == uuid && r[uuid].userId == userId && r[uuid].name == name
    ensures r[uuid].targetAmount == targetAmount && r[uuid].currentAmount == 0.0
    ensures r[uuid].deadline.None? && r[uuid].icon == Some(icon) && !r[uuid].isCompleted
    ensures r[uuid].createdAt == createdAt && r[uuid].updatedAt == updatedAt
    ensures forall id :: id in goals && id != uuid ==> r[id] == goals[id]
    ensures Valid(goals) ==> Valid(r)
  {
    goals[uuid := GoalEntity(uuid, userId, name, targetAmount, 0.0, None, Some(icon), false, createdAt, updatedAt)]
  }

  /**
   `addSavings(goalId, amount)`: adds `amount` to the goal's saved amount and
   stamps it; an unknown id changes nothing. Completion is not re-evaluated.
   */
  function AddSavings(goals: GoalTable, goalId: string, amount: real, now: int): (r: GoalTable)
    ensures goalId !in goals ==> r == goals
    ensures r.Keys == goals.Keys
    ensures goalId in goals ==>
              && r[goalId].currentAmount == goals[goalId].currentAmount + amount
              && r[goalId].updatedAt == now
              && r[goalId].(currentAmount := goals[goalId].currentAmount, updatedAt := goals[goalId].updatedAt) == goals[goalId]
    ensures forall id :: id in goals && id != goalId ==> r[id] == goals[id]
    ensures Valid(goals) ==> Valid(r)
  {
    if goalId !in goals then goals
    else
      var goal := goals[goalId];
      goals[goalId := goal.(currentAmount := goal.currentAmount + amount, updatedAt := now)]
  }

  /** A goal added without an icon shows the target emoji. */
  lemma AddGoalDefaultIcon(goals: GoalTable, userId: string, name: string, targetAmount: real,
                           uuid: string, createdAt: int, updatedAt: int)
    ensures var r := AddGoal(goals, userId, name, targetAmount, uuid := uuid, createdAt := createdAt, updatedAt := updatedAt);
            r[uuid].icon == Some("\U{1F3AF}")
  {
  }

  /** Two deposits amount to one deposit of their sum, stamped with the later time. */
  lemma AddSavingsAdditive(goals: GoalTable, goalId: string, a: real, b: real, t1: int, t2: int)
    ensures AddSavings(AddSavings(goals, goalId, a, t1), goalId, b, t2) == AddSavings(goals, goalId, a + b, t2)
  {
    if goalId in goals {
      var g := goals[goalId];
      assert g.currentAmount + a + b == g.currentAmount + (a + b);
    }
  }

  /** A fresh goal after one deposit holds exactly that deposit, whatever its target. */
  lemma DepositIntoNewGoal(goals: GoalTable, userId: string, name: string, targetAmount: real, icon: string,
                           uuid: string, createdAt: int, updatedAt: int, amount: real, now: int)
    ensures var r := AddSavings(AddGoal(goals, userId, name, targetAmount, icon, uuid, createdAt, updatedAt), uuid, amount, now);
            r[uuid].currentAmount == amount && !r[uuid].isCompleted
  {
  }

  /** A deposit to another user's goal does not change what this user sees. */
  lemma AddSavingsKeepsOtherUsers(goals: GoalTable, goalId: string, amount: real, now: int, userId: string)
    requires Valid(goals)
    requires goalId in goals ==> goals[goalId].userId != userId
    ensures LoadGoals(AddSavings(goals, goalId, amount, now), userId) == LoadGoals(goals, userId)
  {
    var after := AddSavings(goals, goalId, amount, now);
    forall g | g in after.Values && g.userId == userId ensures g in goals.Values {
      var id :| id in after && after[id] == g;
    }
    forall g | g in goals.Values && g.userId == userId ensures g in after.Values {
      var id :| id in goals && goals[id] == g;
      assert after[id] == g;
    }
  }
}

=== FILE: Hex.dfy ===
/**
 Lower-case hexadecimal rendering of bytes, as produced by
 `joinToString("") { "%02x".format(it) }`. Kotlin bytes are signed, but
 `%02x` formats a negative byte as its unsigned value, so a byte is modelled
 directly as an unsigned value 0..255.
 */
module Hex {

  type Byte = b: int | 0 <= b < 256

  predicate IsLowerHexDigit(c: char) {
    '0' <= c <= '9' || 'a' <= c <= 'f'
  }

  predicate AllLowerHex(s: string) {
    forall i :: 0 <= i < |s| ==> IsLowerHexDigit(s[i])
  }

  function HexChar(d: int): (c: char)
    requires 0 <= d < 16
    ensures IsLowerHexDigit(c)
  {
    if d < 10 then (('0' as int) + d) as char else (('a' as int) + d - 10) as char
  }

  function HexValue(c: char): (d: int)
    requires IsLowerHexDigit(c)
    ensures 0 <= d < 16
    ensures HexChar(d) == c
  {
    if c <= '9' then (c as int) - ('0' as int) else (c as int) - ('a' as int) + 10
  }

  /** `"%02x".format(b)`: exactly two lower-case digits, high nibble first. */
  function FormatByte(b: Byte): (s: string)
    ensures |s| == 2 && AllLowerHex(s)
    ensures HexValue(s[0]) * 16 + HexValue(s[1]) == b
  {
    [HexChar(b / 16), HexChar(b % 16)]
  }

  function Encode(bs: seq<Byte>): (s: string)
    ensures |s| == 2 * |bs| && AllLowerHex(s)
  {
    if |bs| == 0 then "" else FormatByte(bs[0]) + Encode(bs[1..])
  }

  function Decode(s: string): (bs: seq<Byte>)
    requires |s| % 2 == 0 && AllLowerHex(s)
    ensures |bs| == |s| / 2
  {
    if |s| == 0 then [] else [HexValue(s[0]) * 16 + HexValue(s[1])] + Decode(s[2..])
  }

  /** Decoding inverts encoding: the rendering loses no information. */
  lemma {:induction false} DecodeEncode(bs: seq<Byte>)
    ensures Decode(Encode(bs)) == bs
  {
    if |bs| > 0 {
      var s := Encode(bs);
      assert s[2..] == Encode(bs[1..]);
      assert s[..2] == FormatByte(bs[0]);
      DecodeEncode(bs[1..]);
    }
  }

  /** The first `2n` characters of an encoding encode the first `n` bytes. */
  lemma {:induction false} EncodePrefix(bs: seq<Byte>, n: nat)
    requires n <= |bs|
    ensures Encode(bs)[..2 * n] == Encode(bs[..n])
  {
    if n > 0 {
      assert bs[..n][1..] == bs[1..][..n - 1];
      EncodePrefix(bs[1..], n - 1);
    }
  }
}

=== FILE: HomeViewModel.dfy ===
/**
 `HomeViewModel.syncTransactions`: the reconciliation of the local table
 with the ledger service, as a function from the table and the remote
 call's outcome to the new table and the request that was sent (if any).

 The remote call is not performed here: `RemoteOutcome` is what it would
 produce, either an exception (`Thrown`) or a response. The ISO-8601
 rendering of an epoch-millisecond timestamp (`Instant.toString`) is the
 parameter `formatInstant`.
 */
module HomeViewModel {
  import opened Wrappers
  import opened SmsParser
  import opened TransactionDao

  datatype RemoteOutcome = Thrown | Responded(response: SyncResponse)

  /** The table after the sync, and the push request, None when the API was never called. */
  datatype SyncRun = SyncRun(table: Table, request: Option<SyncRequest>)

  predicate Acknowledged(outcome: RemoteOutcome) {
    outcome.Responded? && outcome.response.success
  }

  /** The category corrections a response carries; a missing `data` list carries none. */
  function Corrections(outcome: RemoteOutcome): seq<SyncedItem> {
    if outcome.Responded? then outcome.response.data.GetOr([]) else []
  }

  /** A pushed record copies the row's fields, renders its time as ISO-8601 and sends no category. */
  predicate Mirrors(d: TransactionDto, e: TransactionEntity, formatInstant: int -> string) {
    && d.amount == e.amount
    && d.kind == e.kind
    && d.merchant == e.merchant
    && d.source == e.source
    && d.timestamp == formatInstant(e.timestamp)
    && d.rawTextHash == Some(e.rawTextHash)
    && d.balance == e.balance
    && d.category == None
  }

  function ToDto(e: TransactionEntity, formatInstant: int -> string): TransactionDto {
    TransactionDto(e.amount, e.kind, e.merchant, e.source, formatInstant(e.timestamp),
                   Some(e.rawTextHash), e.balance, None)
  }

  function IdsOf(rows: seq<TransactionEntity>): (ids: seq<int>)
    ensures |ids| == |rows| && forall i :: 0 <= i < |rows| ==> ids[i] == rows[i].id
  {
    seq(|rows|, i requires 0 <= i < |rows| => rows[i].id)
  }

  /**
   The category the corrections assign to rows carrying hash `h`: the one
   named by the LAST item with that hash and a category; None when no item
   applies.
   */
  function LastCorrection(items: seq<SyncedItem>, h: string): Option<string> {
    if |items| == 0 then None
    else
      var last := items[|items| - 1];
      if last.rawTextHash == Some(h) && last.category.Some? then last.category
      else LastCorrection(items[..|items| - 1], h)
  }

  lemma {:induction false} LastCorrectionCons(item: SyncedItem, rest: seq<SyncedItem>, h: string)
    ensures LastCorrection([item] + rest, h) ==
              if LastCorrection(rest, h).Some? then LastCorrection(rest, h)
              else if item.rawTextHash == Some(h) && item.category.Some? then item.category
              else None
    decreases |rest|
  {
    var s := [item] + rest;
    if |rest| == 0 {
      assert s[..|s| - 1] == [];
    } else {
      assert s[..|s| - 1] == [item] + rest[..|rest| - 1];
      LastCorrectionCons(item, rest[..|rest| - 1], h);
    }
  }

  /**
   The `response.data?.forEach` loop: each item with both a category and a
   hash re-categorises the rows with that hash; the others are skipped.
   */
  function ApplyCorrections(t: Table, items: seq<SyncedItem>): (r: Table)
    ensures r.sequence == t.sequence && |r.rows| == |t.rows|
    ensures forall i :: 0 <= i < |t.rows| ==>
              && SameRecord(r.rows[i], t.rows[i])
              && r.rows[i].isSynced == t.rows[i].isSynced
              && r.rows[i].category ==
                   (if LastCorrection(items, t.rows[i].rawTextHash).Some?
                    then LastCorrection(items, t.rows[i].rawTextHash) else t.rows[i].category)
    decreases |items|
  {
    if |items| == 0 then t
    else
      var item := items[0];
      var t' := if item.category.Some? && item.rawTextHash.Some?
                then UpdateCategory(t, item.rawTextHash.value, item.category.value) else t;
      var r := ApplyCorrections(t', items[1..]);
      assert items == [item] + items[1..];
      assert forall h :: LastCorrection(items, h) ==
               if LastCorrection(items[1..], h).Some? then LastCorrection(items[1..], h)
               else if item.rawTextHash == Some(h) && item.category.Some? then item.category
               else None by {
        forall h { LastCorrectionCons(item, items[1..], h); }
      }
      r
  }

  /** The push request: one record per unsynced row, in the same order. */
  function BuildRequest(deviceId: string, rows: seq<TransactionEntity>, formatInstant: int -> string): (req: SyncRequest)
    ensures req.deviceId == deviceId && |req.transactions| == |rows|
    ensures forall i :: 0 <= i < |rows| ==> Mirrors(req.transactions[i], rows[i], formatInstant)
  {
    SyncRequest(deviceId, seq(|rows|, i requires 0 <= i < |rows| => ToDto(rows[i], formatInstant)))
  }

  /**
   What the reconciler does with the remote outcome once the rows `pushed`
   were sent: on success mark their ids synced and apply the corrections;
   otherwise leave the table as it is.
   */
  function Settle(t: Table, pushed: seq<TransactionEntity>, outcome: RemoteOutcome): (r: Table)
    requires pushed == t.rows
    ensures r.sequence == t.sequence && |r.rows| == |t.rows|
    ensures forall i :: 0 <= i < |t.rows| ==> SameRecord(r.rows[i], t.rows[i])
    ensures Acknowledged(outcome) ==> forall i :: 0 <= i < |t.rows| ==>
              && r.rows[i].isSynced
              && r.rows[i].category ==
                   (if LastCorrection(Corrections(outcome), t.rows[i].rawTextHash).Some?
                    then LastCorrection(Corrections(outcome), t.rows[i].rawTextHash) else t.rows[i].category)
    ensures !Acknowledged(outcome) ==> r == t
  {
    if Acknowledged(outcome) then
      var marked := MarkAsSynced(t, IdsOf(pushed));
      assert forall i :: 0 <= i < |t.rows| ==> marked.rows[i].isSynced by {
        forall i | 0 <= i < |t.rows| ensures marked.rows[i].isSynced {
          assert IdsOf(pushed)[i] == t.rows[i].id;
        }
      }
      ApplyCorrections(marked, Corrections(outcome))
    else
      t
  }

  /**
   `syncTransactions(deviceId)`: reset every row to unsynced, read the
   unsynced rows, stop if there are none, push them all in one request; on a
   success response mark the pushed ids synced and apply the category
   corrections; on a failure response or an exception change nothing more.
   */
  function SyncTransactions(t: Table, deviceId: string, formatInstant: int -> string,
                            outcome: RemoteOutcome): (r: SyncRun)
    ensures r.table.sequence == t.sequence && |r.table.rows| == |t.rows|
    ensures forall i :: 0 <= i < |t.rows| ==> SameRecord(r.table.rows[i], t.rows[i])
    ensures r.request.None? <==> |t.rows| == 0
    ensures r.request.Some? ==>
              && r.request.value.deviceId == deviceId
              && |r.request.value.transactions| == |t.rows|
              && forall i :: 0 <= i < |t.rows| ==> Mirrors(r.request.value.transactions[i], t.rows[i], formatInstant)
    ensures Acknowledged(outcome) ==> forall i :: 0 <= i < |t.rows| ==>
              && r.table.rows[i].isSynced
              && r.table.rows[i].category ==
                   (if LastCorrection(Corrections(outcome), t.rows[i].rawTextHash).Some?
                    then LastCorrection(Corrections(outcome), t.rows[i].rawTextHash) else t.rows[i].category)
    ensures !Acknowledged(outcome) ==> forall i :: 0 <= i < |t.rows| ==>
              && !r.table.rows[i].isSynced
              && r.table.rows[i].category == t.rows[i].category
  {
    var reset := MarkAllAsUnsynced(t);
    var unsynced := GetUnsyncedTransactions(reset);
    ResetSelectsEveryRow(t);
    if |unsynced| == 0 then
      SyncRun(reset, None)
    else
      var table := Settle(reset, unsynced, outcome);
      var req := BuildRequest(deviceId, unsynced, formatInstant);
      assert forall i :: 0 <= i < |t.rows| ==> Mirrors(req.transactions[i], t.rows[i], formatInstant) by {
        forall i | 0 <= i < |t.rows| ensures Mirrors(req.transactions[i], t.rows[i], formatInstant) {
          MirrorsIgnoresSyncColumns(req.transactions[i], reset.rows[i], t.rows[i], formatInstant);
        }
      }
      assert forall i :: 0 <= i < |t.rows| ==> SameRecord(table.rows[i], t.rows[i]) by {
        forall i | 0 <= i < |t.rows| ensures SameRecord(table.rows[i], t.rows[i]) {
          SameRecordTransitive(table.rows[i], reset.rows[i], t.rows[i]);
        }
      }
      SyncRun(table, Some(req))
  }

  /** Differing only in the sync columns is transitive. */
  lemma SameRecordTransitive(a: TransactionEntity, b: TransactionEntity, c: TransactionEntity)
    requires SameRecord(a, b) && SameRecord(b, c)
    ensures SameRecord(a, c)
  {
  }

  /** A pushed record mirrors every version of a row that differs only in the columns the store updates. */
  lemma MirrorsIgnoresSyncColumns(d: TransactionDto, a: TransactionEntity, b: TransactionEntity, formatInstant: int -> string)
    requires Mirrors(d, a, formatInstant) && SameRecord(a, b)
    ensures Mirrors(d, b, formatInstant)
  {
    assert a.(isSynced := false, category := None).amount == a.amount;
    assert b.(isSynced := false, category := None).amount == b.amount;
  }

  // ---------------------------------------------------------------------
  // Properties
  // ---------------------------------------------------------------------

  /** After the reset, the unsynced query selects every row, in table order: the push is always the whole table. */
  lemma ResetSelectsEveryRow(t: Table)
    ensures GetUnsyncedTransactions(MarkAllAsUnsynced(t)) == MarkAllAsUnsynced(t).rows
  {
    AllUnsyncedSelected(MarkAllAsUnsynced(t));
  }

  lemma {:induction false} AllUnsyncedSelected(t: Table)
    requires forall i :: 0 <= i < |t.rows| ==> !t.rows[i].isSynced
    ensures GetUnsyncedTransactions(t) == t.rows
    decreases |t.rows|
  {
    if |t.rows| > 0 {
      AllUnsyncedSelected(Table(t.rows[1..], t.sequence));
    }
  }

  /** With an empty table the remote outcome is never consulted and nothing is sent. */
  lemma EmptyTableSkipsRemote(t: Table, deviceId: string, formatInstant: int -> string,
                              o1: RemoteOutcome, o2: RemoteOutcome)
    requires |t.rows| == 0
    ensures SyncTransactions(t, deviceId, formatInstant, o1) == SyncTransactions(t, deviceId, formatInstant, o2)
    ensures SyncTransactions(t, deviceId, formatInstant, o1) == SyncRun(t, None)
  {
    assert MarkAllAsUnsynced(t).rows == t.rows;
  }

  lemma SameRecordEqual(a: TransactionEntity, b: TransactionEntity)
    requires SameRecord(a, b) && a.isSynced == b.isSynced && a.category == b.category
    ensures a == b
  {
    assert a == a.(isSynced := false, category := None).(isSynced := a.isSynced, category := a.category);
    assert b == b.(isSynced := false, category := None).(isSynced := b.isSynced, category := b.category);
  }

  /**
   Retrying is safe: syncing again with the same outcome leaves the table
   as the first sync left it.
   */
  lemma SyncRetryIsIdempotent(t: Table, deviceId: string, formatInstant: int -> string, outcome: RemoteOutcome)
    ensures var once := SyncTransactions(t, deviceId, formatInstant, outcome).table;
            SyncTransactions(once, deviceId, formatInstant, outcome).table == once
  {
    var once := SyncTransactions(t, deviceId, formatInstant, outcome).table;
    var twice := SyncTransactions(once, deviceId, formatInstant, outcome).table;
    forall i | 0 <= i < |t.rows| ensures twice.rows[i] == once.rows[i] {
      assert once.rows[i].rawTextHash == t.rows[i].rawTextHash;
      SameRecordEqual(twice.rows[i], once.rows[i]);
    }
    assert twice.rows == once.rows;
  }

  /**
   A failed attempt (error response or exception) is harmless: a later sync
   ends in the same table as if the failed attempt had never happened.
   */
  lemma FailedAttemptIsHarmless(t: Table, deviceId: string, formatInstant: int -> string,
                                failed: RemoteOutcome, later: RemoteOutcome)
    requires !Acknowledged(failed)
    ensures var after := SyncTransactions(t, deviceId, formatInstant, failed).table;
            SyncTransactions(after, deviceId, formatInstant, later).table ==
            SyncTransactions(t, deviceId, formatInstant, later).table
  {
    var reset := MarkAllAsUnsynced(t);
    var after := SyncTransactions(t, deviceId, formatInstant, failed).table;
    assert after == reset;
    assert MarkAllAsUnsynced(reset).rows == reset.rows;
  }
}

=== FILE: Insights.dfy ===
/**
 The business rules of the insights screen: `generateInsights`, the
 financial health score and the pulse status it is shown with. Spending
 totals are rupees as reported by the ledger service, modelled as `real`.
 */
module Insights {
  import opened Wrappers
  import opened Decimal

  datatype SpendingItem = SpendingItem(categoryId: string, categoryName: string, total: real, count: int)

  datatype InsightType = Alert | Saving | Habit

  /** `kind` is the Kotlin field `type`. */
  datatype Insight = Insight(title: string, message: string, kind: InsightType, action: string)

  const SpikeThreshold: real := 1000.0
  const SavingThreshold: real := -500.0
  const Rupee := "\U{20B9}"

  const IntMax: int := 2147483647
  const IntMin: int := -2147483648

  // ---------------------------------------------------------------------
  // Number rendering used in the messages
  // ---------------------------------------------------------------------

  /** Kotlin's `Double.toInt()`: rounds toward zero and saturates at the 32-bit bounds. */
  function DoubleToInt(x: real): (n: int)
    ensures IntMin <= n <= IntMax
    ensures x >= 0.0 && x < IntMax as real ==> n as real <= x < n as real + 1.0
    ensures x <= 0.0 && x > IntMin as real ==> n as real - 1.0 < x <= n as real
    ensures x >= IntMax as real ==> n == IntMax
    ensures x <= IntMin as real ==> n == IntMin
  {
    if x >= IntMax as real then IntMax
    else if x <= IntMin as real then IntMin
    else if x >= 0.0 then x.Floor
    else -((-x).Floor)
  }

  /** `kotlin.math.abs(Int)`: `Int.MIN_VALUE` has no positive counterpart and is returned unchanged. */
  function AbsInt(n: int): (r: int)
    requires IntMin <= n <= IntMax
    ensures n != IntMin ==> r >= 0 && (r == n || r == -n)
    ensures n == IntMin ==> r == n
  {
    if n == IntMin then n else if n < 0 then -n else n
  }

  /** Kotlin's decimal rendering of an `Int`: a minus sign before the rendering of the magnitude. */
  function IntToString(n: int): string
    decreases if n < 0 then 1 else 0
  {
    if n < 0 then "-" + IntToString(-n) else NatToDigits(n)
  }

  // ---------------------------------------------------------------------
  // generateInsights
  // ---------------------------------------------------------------------

  /** The position of the first item of the category, or `|previous|` when there is none. */
  function FirstIndexOf(previous: seq<SpendingItem>, categoryId: string): (k: nat)
    ensures k <= |previous|
    ensures k < |previous| ==> previous[k].categoryId == categoryId
    ensures forall j :: 0 <= j < k ==> previous[j].categoryId != categoryId
  {
    if |previous| == 0 then 0
    else if previous[0].categoryId == categoryId then 0
    else 1 + FirstIndexOf(previous[1..], categoryId)
  }

  /** `previous.find { it.categoryId == id }`: the first item of that category. */
  function FindPrevious(previous: seq<SpendingItem>, categoryId: string): (r: Option<SpendingItem>)
    ensures r.None? <==> forall j :: 0 <= j < |previous| ==> previous[j].categoryId != categoryId
    ensures r.Some? ==> exists k :: && 0 <= k < |previous| && previous[k] == r.value
                                    && r.value.categoryId == categoryId
                                    && forall j :: 0 <= j < k ==> previous[j].categoryId != categoryId
  {
    var k := FirstIndexOf(previous, categoryId);
    if k < |previous| then Some(previous[k]) else None
  }

  function SpikeInsight(item: SpendingItem, increase: real): Insight {
    Insight("Spending Spike",
            item.categoryName + " is " + Rupee + IntToString(DoubleToInt(increase)) + " higher than last month.",
            Alert, "Check Transactions")
  }

  function SavingInsight(item: SpendingItem, increase: real): Insight {
    Insight("Great Saving!",
            "You spent " + Rupee + IntToString(AbsInt(DoubleToInt(increase))) + " less on " + item.categoryName + ".",
            Saving, "Keep it up")
  }

  function HabitInsight(categoryName: string): Insight {
    Insight("Spending Habit", "Your top category is " + categoryName + ".", Habit, "Set Budget")
  }

  /**
   The loop body for one current item: a spike when its total rose by more
   than 1000 over the first previous item of its category, a saving when it
   fell by more than 500, nothing otherwise or without a previous item.
   */
  function ItemInsight(item: SpendingItem, previous: seq<SpendingItem>): (r: Option<Insight>)
    ensures (r.Some? && r.value.kind == Alert) <==>
              FindPrevious(previous, item.categoryId).Some?
              && item.total - FindPrevious(previous, item.categoryId).value.total > SpikeThreshold
    ensures (r.Some? && r.value.kind == Saving) <==>
              FindPrevious(previous, item.categoryId).Some?
              && item.total - FindPrevious(previous, item.categoryId).value.total < SavingThreshold
    ensures r.None? <==>
              || FindPrevious(previous, item.categoryId).None?
              || SavingThreshold <= item.total - FindPrevious(previous, item.categoryId).value.total <= SpikeThreshold
    ensures r.Some? ==> r.value.kind != Habit
  {
    match FindPrevious(previous, item.categoryId)
    case None => None
    case Some(prev) =>
      var increase := item.total - prev.total;
      if increase > SpikeThreshold then Some(SpikeInsight(item, increase))
      else if increase < SavingThreshold then Some(SavingInsight(item, increase))
      else None
  }

  /** What an item insight says: the spike text for an increase over 1000 ... */
  lemma SpikeInsightText(item: SpendingItem, previous: seq<SpendingItem>)
    ensures var r := ItemInsight(item, previous);
            r.Some? && r.value.kind == Alert ==>
              r.value == SpikeInsight(item, item.total - FindPrevious(previous, item.categoryId).value.total)
  {
    var p := FindPrevious(previous, item.categoryId);
    if p.Some? && item.total - p.value.total > SpikeThreshold {
      assert ItemInsight(item, previous) == Some(SpikeInsight(item, item.total - p.value.total));
    }
  }

  /** ... and the saving text for a decrease of more than 500. */
  lemma SavingInsightText(item: SpendingItem, previous: seq<SpendingItem>)
    ensures var r := ItemInsight(item, previous);
            r.Some? && r.value.kind == Saving ==>
              r.value == SavingInsight(item, item.total - FindPrevious(previous, item.categoryId).value.total)
  {
    var p := FindPrevious(previous, item.categoryId);
    if p.Some? && item.total - p.value.total < SavingThreshold {
      assert ItemInsight(item, previous) == Some(SavingInsight(item, item.total - p.value.total));
    }
  }

  function OptionToSeq(o: Option<Insight>): seq<Insight> {
    if o.Some? then [o.value] else []
  }

  /** The `current.forEach` loop: the item insights, in the order of `current`. */
  function LoopInsights(current: seq<SpendingItem>, previous: seq<SpendingItem>): (r: seq<Insight>)
    ensures |r| <= |current|
    ensures forall k :: 0 <= k < |r| ==> r[k].kind != Habit
  {
    if |current| == 0 then []
    else OptionToSeq(ItemInsight(current[0], previous)) + LoopInsights(current[1..], previous)
  }

  /** The loop produces nothing exactly when no item yields an insight. */
  lemma {:induction false} LoopInsightsEmpty(current: seq<SpendingItem>, previous: seq<SpendingItem>)
    ensures LoopInsights(current, previous) == [] <==>
              forall i :: 0 <= i < |current| ==> ItemInsight(current[i], previous).None?
  {
    if |current| > 0 {
      var h, rest := current[0], current[1..];
      assert current == [h] + rest;
      LoopInsightsCons(h, rest, previous);
      LoopInsightsEmpty(rest, previous);
      assert forall i :: 1 <= i < |current| ==> current[i] == rest[i - 1];
    }
  }

  /** Kotlin's `maxBy { it.total }`: the FIRST item of maximal total. */
  function TopIndex(items: seq<SpendingItem>): (k: nat)
    requires |items| > 0
    ensures k < |items|
    ensures forall i :: 0 <= i < |items| ==> items[i].total <= items[k].total
    ensures forall i :: 0 <= i < k ==> items[i].total < items[k].total
  {
    if |items| == 1 then 0
    else
      var k := TopIndex(items[..|items| - 1]);
      if items[k].total < items[|items| - 1].total then |items| - 1 else k
  }

  /**
   `generateInsights(current, previous)`: the loop insights, or, when the
   loop produced none and `current` is non-empty, a single habit insight
   naming the first category of maximal total.
   */
  function GenerateInsights(current: seq<SpendingItem>, previous: seq<SpendingItem>): (r: seq<Insight>)
    ensures |current| == 0 ==> r == []
    ensures LoopInsights(current, previous) != [] ==> r == LoopInsights(current, previous)
    ensures (exists k :: 0 <= k < |r| && r[k].kind == Habit) <==>
              LoopInsights(current, previous) == [] && |current| > 0
    ensures LoopInsights(current, previous) == [] && |current| > 0 ==>
              exists k :: && 0 <= k < |current|
                          && (forall i :: 0 <= i < |current| ==> current[i].total <= current[k].total)
                          && (forall i :: 0 <= i < k ==> current[i].total < current[k].total)
                          && r == [HabitInsight(current[k].categoryName)]
  {
    var insights := LoopInsights(current, previous);
    if |insights| == 0 && |current| > 0 then
      var k := TopIndex(current);
      var r := [HabitInsight(current[k].categoryName)];
      assert r[0].kind == Habit;
      r
    else
      insights
  }

  // ---------------------------------------------------------------------
  // Properties of generateInsights
  // ---------------------------------------------------------------------

  /**
   The loop processes items in order: the insights for `current + [x]` are
   those for `current` followed by at most the one insight of `x`.
   */
  lemma {:induction false} LoopInsightsAppend(current: seq<SpendingItem>, x: SpendingItem, previous: seq<SpendingItem>)
    ensures LoopInsights(current + [x], previous) ==
              LoopInsights(current, previous) + OptionToSeq(ItemInsight(x, previous))
  {
    if |current| > 0 {
      var h, rest := current[0], current[1..];
      assert current == [h] + rest;
      assert current + [x] == [h] + (rest + [x]);
      LoopInsightsCons(h, rest + [x], previous);
      LoopInsightsCons(h, rest, previous);
      LoopInsightsAppend(rest, x, previous);
      ConcatAssoc(OptionToSeq(ItemInsight(h, previous)), LoopInsights(rest, previous), OptionToSeq(ItemInsight(x, previous)));
    } else {
      assert current + [x] == [x] + [];
      LoopInsightsCons(x, [], previous);
    }
  }

  /** One unrolling of the loop. */
  lemma LoopInsightsCons(h: SpendingItem, rest: seq<SpendingItem>, previous: seq<SpendingItem>)
    ensures LoopInsights([h] + rest, previous) == OptionToSeq(ItemInsight(h, previous)) + LoopInsights(rest, previous)
  {
    assert ([h] + rest)[0] == h && ([h] + rest)[1..] == rest;
  }

  lemma ConcatAssoc<T>(a: seq<T>, b: seq<T>, c: seq<T>)
    ensures a + (b + c) == (a + b) + c
  {
  }

  // ---------------------------------------------------------------------
  // Health score and pulse status
  // ---------------------------------------------------------------------

  const MonthlyBudget: real := 30000.0

  /** `(100 - totalSpent / 30000 * 100).coerceIn(0.0, 100.0).toInt()`. */
  function HealthScore(totalSpent: real): (score: int)
    ensures 0 <= score <= 100
    ensures totalSpent <= 0.0 ==> score == 100
    ensures totalSpent >= MonthlyBudget ==> score == 0
  {
    var percentSpent := (totalSpent / MonthlyBudget) * 100.0;
    var x := 100.0 - percentSpent;
    var clamped := if x < 0.0 then 0.0 else if x > 100.0 then 100.0 else x;
    clamped.Floor
  }

  /** The status text of the financial pulse card. */
  function PulseStatus(score: int): (r: string)
    ensures r == "Excellent!" <==> score > 80
    ensures r == "On Track" <==> 50 < score <= 80
    ensures r == "Needs Attention" <==> score <= 50
  {
    if score > 80 then "Excellent!"
    else if score > 50 then "On Track"
    else "Needs Attention"
  }

  /** Spending more never raises the score. */
  lemma HealthScoreNonIncreasing(a: real, b: real)
    requires a <= b
    ensures HealthScore(b) <= HealthScore(a)
  {
  }

  /**
   The status bands in rupees spent against the 30000 budget: "Excellent!"
   up to 5700, "On Track" up to 14700, "Needs Attention" beyond.
   */
  lemma StatusBands(totalSpent: real)
    ensures PulseStatus(HealthScore(totalSpent)) == "Excellent!" <==> totalSpent <= 5700.0
    ensures PulseStatus(HealthScore(totalSpent)) == "On Track" <==> 5700.0 < totalSpent <= 14700.0
    ensures PulseStatus(HealthScore(totalSpent)) == "Needs Attention" <==> totalSpent > 14700.0
  {
  }
}

=== FILE: SmsParser.dfy ===
/**
 The SMS-to-transaction extractor (`SmsParser.parseMessage`) and the wire
 shapes it shares with the sync code (`Transaction`, `TransactionDto`,
 `SyncRequest`, `SyncResponse`).

 The Java regular-expression engine and SHA-256 are not re-implemented: they
 are supplied as an `Engine`, and `RegexSound` states what the three primary
 patterns and the balance pattern guarantee about any match they report.
 */
module SmsParser {
  import opened Wrappers
  import opened Decimal
  import opened Amount
  import opened Text
  import Hex

  // ---------------------------------------------------------------------
  // Data classes
  // ---------------------------------------------------------------------

  /** A parsed message. Amounts are in paise; `kind` is the Kotlin field `type` ("DEBIT" or "CREDIT"); `timestamp` is the parse-time clock. */
  datatype Transaction = Transaction(
    amount: nat,
    kind: string,
    merchant: string,
    source: string,
    timestamp: int,
    balance: Option<nat>,
    rawTextHash: string)

  /**
   The record pushed to the ledger service. `category` is the field the
   reconciler passes (always null); the receiver leaves it at its default.
   */
  datatype TransactionDto = TransactionDto(
    amount: int,
    kind: string,
    merchant: string,
    source: string,
    timestamp: string,
    rawTextHash: Option<string>,
    balance: Option<int>,
    category: Option<string>)

  datatype SyncRequest = SyncRequest(deviceId: string, transactions: seq<TransactionDto>)

  /** One entry of the response's optional `data` list: a hash and the category name assigned to it. */
  datatype SyncedItem = SyncedItem(rawTextHash: Option<string>, category: Option<string>)

  datatype SyncResponse = SyncResponse(
    success: bool,
    created: int,
    skipped: int,
    errors: seq<string>,
    data: Option<seq<SyncedItem>>)

  const DEBIT := "DEBIT"
  const CREDIT := "CREDIT"
  const UPI := "UPI"
  const MerchantLimit: nat := 50
  const HashLength: nat := 32

  // ---------------------------------------------------------------------
  // The pattern engine
  // ---------------------------------------------------------------------

  /**
   The three primary patterns, in the order they are tried:
   DebitFirst  `(?i)debited.*?rs\.?\s*(AMOUNT).*?(?:to|from)\s*(.+?)(?:\s+on|$)`
   AmountFirst `(?i)rs\.?\s*(AMOUNT)\s+debited.*?(?:to|from)\s*(.+?)(?:\s+on|$)`
   Credit      `(?i)credited.*?rs\.?\s*(AMOUNT).*?from\s*(.+?)(?:\s+to|$)`
   with AMOUNT = `\d+(?:\.\d{2})?`.
   */
  datatype Shape = DebitFirst | AmountFirst | Credit

  function Rank(p: Shape): nat {
    match p
    case DebitFirst => 0
    case AmountFirst => 1
    case Credit => 2
  }

  /** The transaction type a shape produces. */
  function TypeOf(p: Shape): string {
    if p == Credit then CREDIT else DEBIT
  }

  /** The word every match of a shape contains. */
  function KeywordOf(p: Shape): string {
    if p == Credit then "credited" else "debited"
  }

  /** Capture groups 1 (amount) and 2 (counterparty) of a match. */
  datatype Groups = Groups(amountText: string, partyText: string)

  type Digest = d: seq<Hex.Byte> | |d| == 32 witness seq(32, _ => 0)

  /**
   `find` is `Regex(shape).find(message)`, `findBalance` gives group 1 of the
   balance pattern `(?i)(?:avl|bal|balance).*?rs\.?\s*(AMOUNT)`, and `sha256`
   digests the message's bytes.
   */
  datatype Engine = Engine(
    find: (Shape, string) -> Option<Groups>,
    findBalance: string -> Option<string>,
    sha256: string -> Digest)

  /** `s` contains the lower-case ASCII word `w` under `(?i)` case folding, starting at `i`. */
  predicate WordAt(s: string, w: string, i: int) {
    0 <= i && i + |w| <= |s| && forall k :: 0 <= k < |w| ==> LowerAscii(s[i + k]) == w[k]
  }

  function LowerAscii(c: char): char {
    if 'A' <= c <= 'Z' then (c as int + 32) as char else c
  }

  ghost predicate ContainsWord(s: string, w: string) {
    exists i :: WordAt(s, w, i)
  }

  /** What any reported match of shape `p` in `s` satisfies. */
  ghost predicate MatchSound(p: Shape, s: string, g: Groups) {
    && IsAmountToken(g.amountText)
    && IsInfix(g.partyText, s)
    && ContainsRsAscii(s)
    && ContainsWord(s, KeywordOf(p))
  }

  /** The engine behaves as the Java patterns do, as far as the parser relies on it. */
  ghost predicate RegexSound(e: Engine) {
    && (forall p, s :: e.find(p, s).Some? ==> MatchSound(p, s, e.find(p, s).value))
    && (forall s :: e.findBalance(s).Some? ==> IsAmountToken(e.findBalance(s).value) && ContainsRsAscii(s))
  }

  // ---------------------------------------------------------------------
  // parseMessage and its helpers
  // ---------------------------------------------------------------------

  /** `generateHash`: the first 32 characters of the lower-case hex SHA-256 digest. */
  function Fingerprint(d: Digest): (h: string)
    ensures |h| == HashLength && Hex.AllLowerHex(h)
    ensures Hex.Decode(h) == d[..16]
  {
    Hex.EncodePrefix(d, 16);
    Hex.DecodeEncode(d[..16]);
    Take(Hex.Encode(d), HashLength)
  }

  /** `extractBalance`: the amount after the first balance mention, if any. */
  function ExtractBalance(e: Engine, message: string): (r: Option<nat>)
    ensures r.Some? ==> e.findBalance(message).Some? && ParseAmount(e.findBalance(message).value) == r
    ensures RegexSound(e) ==> (r.Some? <==> e.findBalance(message).Some?)
  {
    match e.findBalance(message)
    case Some(t) => ParseAmount(t)
    case None => None
  }

  /**
   The ordered dispatch: the first shape (in `Rank` order) whose pattern
   finds a match, with its groups; later shapes are only looked at when every
   earlier one failed.
   */
  function FirstMatch(e: Engine, message: string): (r: Option<(Shape, Groups)>)
    ensures r.Some? ==> e.find(r.value.0, message) == Some(r.value.1)
    ensures r.Some? ==> forall q: Shape :: Rank(q) < Rank(r.value.0) ==> e.find(q, message).None?
    ensures r.None? <==> forall q: Shape :: e.find(q, message).None?
  {
    match e.find(DebitFirst, message)
    case Some(g) => Some((DebitFirst, g))
    case None =>
      match e.find(AmountFirst, message)
      case Some(g) => Some((AmountFirst, g))
      case None =>
        match e.find(Credit, message)
        case Some(g) => Some((Credit, g))
        case None =>
          assert forall q: Shape :: e.find(q, message).None? by {
            forall q: Shape ensures e.find(q, message).None? {
              if q.DebitFirst? {} else if q.AmountFirst? {} else { assert q == Credit; }
            }
          }
          None
  }

  /**
   `createTransaction` (and the identical inline credit branch): null when
   the amount text does not parse, otherwise the transaction built from the
   groups, the balance scan and the fingerprint.
   */
  function CreateTransaction(e: Engine, g: Groups, kind: string, message: string, now: int): (r: Option<Transaction>)
    ensures r.Some? <==> IsAmountToken(g.amountText)
    ensures r.Some? ==> Some(r.value.amount) == ParseAmount(g.amountText)
    ensures r.Some? ==> && r.value.kind == kind
                        && r.value.source == UPI
                        && r.value.timestamp == now
                        && r.value.balance == ExtractBalance(e, message)
                        && r.value.rawTextHash == Fingerprint(e.sha256(message))
    ensures r.Some? ==> && |r.value.merchant| == (if |Trim(g.partyText)| <= MerchantLimit then |Trim(g.partyText)| else MerchantLimit)
                        && r.value.merchant == Trim(g.partyText)[..|r.value.merchant|]
                        && (|r.value.merchant| > 0 ==> !IsWhitespace(r.value.merchant[0]))
  {
    match ParseAmount(g.amountText)
    case None => None
    case Some(amount) =>
      Some(Transaction(
        amount := amount,
        kind := kind,
        merchant := Take(Trim(g.partyText), MerchantLimit),
        source := UPI,
        timestamp := now,
        balance := ExtractBalance(e, message),
        rawTextHash := Fingerprint(e.sha256(message))))
  }

  /**
   `parseMessage`: null unless the message contains "rs" case-insensitively;
   otherwise the first matching shape decides the result.
   */
  function ParseMessage(e: Engine, message: string, now: int): (r: Option<Transaction>)
    ensures !ContainsRsIgnoreCase(message) ==> r == None
    ensures r.Some? <==> && ContainsRsIgnoreCase(message)
                         && FirstMatch(e, message).Some?
                         && IsAmountToken(FirstMatch(e, message).value.1.amountText)
    ensures r.Some? ==> && r.value.kind == TypeOf(FirstMatch(e, message).value.0)
                        && Some(r.value.amount) == ParseAmount(FirstMatch(e, message).value.1.amountText)
                        && r.value.source == UPI
                        && r.value.timestamp == now
                        && r.value.balance == ExtractBalance(e, message)
                        && r.value.rawTextHash == Fingerprint(e.sha256(message))
                        && r.value.merchant == Take(Trim(FirstMatch(e, message).value.1.partyText), MerchantLimit)
                        && |r.value.merchant| <= MerchantLimit
  {
    if !ContainsRsIgnoreCase(message) then None
    else
      match FirstMatch(e, message)
      case None => None
      case Some((p, g)) => CreateTransaction(e, g, TypeOf(p), message, now)
  }

  // ---------------------------------------------------------------------
  // Properties
  // ---------------------------------------------------------------------

  /**
   Once shape `p` matches, the shapes after it are never consulted: two
   engines that agree on `p` and every earlier shape (and on the balance scan
   and the digest) parse the message identically.
   */
  lemma LaterShapesIgnored(e1: Engine, e2: Engine, message: string, now: int, p: Shape)
    requires e1.find(p, message).Some?
    requires forall q: Shape :: Rank(q) <= Rank(p) ==> e1.find(q, message) == e2.find(q, message)
    requires e1.findBalance(message) == e2.findBalance(message)
    requires e1.sha256(message) == e2.sha256(message)
    ensures ParseMessage(e1, message, now) == ParseMessage(e2, message, now)
  {
    assert FirstMatch(e1, message) == FirstMatch(e2, message) by {
      assert e1.find(DebitFirst, message) == e2.find(DebitFirst, message) by {
        assert Rank(DebitFirst) <= Rank(p);
      }
      if p != DebitFirst {
        assert e1.find(AmountFirst, message) == e2.find(AmountFirst, message) by {
          assert Rank(AmountFirst) <= Rank(p);
        }
      }
    }
    assert ExtractBalance(e1, message) == ExtractBalance(e2, message);
    if ContainsRsIgnoreCase(message) && FirstMatch(e1, message).Some? {
      var (q, g) := FirstMatch(e1, message).value;
      assert CreateTransaction(e1, g, TypeOf(q), message, now) == CreateTransaction(e2, g, TypeOf(q), message, now);
    }
  }

  /**
   With a faithful pattern engine, neither the "rs" gate nor the amount
   conversion ever rejects a match: a message parses exactly when some
   pattern matches it.
   */
  lemma ParsesIffSomeShapeMatches(e: Engine, message: string, now: int)
    requires RegexSound(e)
    ensures ParseMessage(e, message, now).Some? <==> exists q: Shape :: e.find(q, message).Some?
  {
    var m := FirstMatch(e, message);
    if m.Some? {
      var (p, g) := m.value;
      assert MatchSound(p, message, g);
      AsciiRsPassesGate(message);
    }
  }

  /** A parsed merchant is a piece of the message, at most 50 characters long. */
  lemma MerchantComesFromMessage(e: Engine, message: string, now: int)
    requires RegexSound(e)
    ensures ParseMessage(e, message, now).Some? ==>
              && IsInfix(ParseMessage(e, message, now).value.merchant, message)
              && |ParseMessage(e, message, now).value.merchant| <= MerchantLimit
  {
    if ParseMessage(e, message, now).None? { return; }
    var (p, g) := FirstMatch(e, message).value;
    var r := CreateTransaction(e, g, TypeOf(p), message, now);
    assert ParseMessage(e, message, now) == r;
    assert MatchSound(p, message, g);
    var t := Trim(g.partyText);
    TrimIsInfix(g.partyText);
    PrefixIsInfix(r.value.merchant, t);
    InfixTransitive(r.value.merchant, t, g.partyText);
    InfixTransitive(r.value.merchant, g.partyText, message);
  }

  /** A parsed transaction's type names a word the message contains. */
  lemma TypeMatchesKeyword(e: Engine, message: string, now: int)
    requires RegexSound(e)
    ensures ParseMessage(e, message, now).Some? && ParseMessage(e, message, now).value.kind == DEBIT ==>
              ContainsWord(message, "debited")
    ensures ParseMessage(e, message, now).Some? && ParseMessage(e, message, now).value.kind == CREDIT ==>
              ContainsWord(message, "credited")
  {
    if ParseMessage(e, message, now).None? { return; }
    var (p, g) := FirstMatch(e, message).value;
    assert MatchSound(p, message, g);
  }

  /** Every field but the clock is a function of the message: re-parsing at another time changes only `timestamp`. */
  lemma ParseDependsOnlyOnMessage(e: Engine, message: string, t1: int, t2: int)
    ensures ParseMessage(e, message, t1).Some? == ParseMessage(e, message, t2).Some?
    ensures ParseMessage(e, message, t1).Some? ==>
              ParseMessage(e, message, t1).value.(timestamp := t2) == ParseMessage(e, message, t2).value
  {
  }

  /**
   The merchant may be empty. In "debited Rs 500 to  " the first pattern's
   lazy counterparty group takes the last blank (the `\s*` before it keeps
   the other one), and that blank trims to "". The engine below reports just
   that match and is faithful.
   */
  const BlankPartyMessage := "debited Rs 500 to  "

  function BlankPartyEngine(): Engine {
    Engine((p, s) => if p == DebitFirst && s == BlankPartyMessage then Some(Groups("500", " ")) else None,
           s => None,
           s => seq(32, _ => 0))
  }

  lemma BlankPartyEngineSound()
    ensures RegexSound(BlankPartyEngine())
  {
    var e := BlankPartyEngine();
    var m := BlankPartyMessage;
    forall p, s | e.find(p, s).Some?
      ensures MatchSound(p, s, e.find(p, s).value)
    {
      assert p == DebitFirst && s == m;
      assert m[7..8] == " ";
      assert m[8] == 'R' && m[9] == 's';
      assert WordAt(m, "debited", 0);
    }
  }

  lemma BlankPartyMatch()
    ensures ContainsRsIgnoreCase(BlankPartyMessage)
    ensures FirstMatch(BlankPartyEngine(), BlankPartyMessage) == Some((DebitFirst, Groups("500", " ")))
    ensures ExtractBalance(BlankPartyEngine(), BlankPartyMessage) == None
  {
    var m := BlankPartyMessage;
    assert IsRIgnoreCase(m[8]) && IsSIgnoreCase(m[9]);
  }

  lemma FiveHundredRupees()
    ensures ParseAmount("500") == Some(50000)
  {
    assert DigitsValue("500") == 5 * 100 by {
      assert "500"[..2] == "50";
      assert "50"[..1] == "5";
      assert "5"[..0] == "";
    }
  }

  lemma EmptyMerchantPossible()
    ensures RegexSound(BlankPartyEngine())
    ensures ParseMessage(BlankPartyEngine(), BlankPartyMessage, 0)
            == Some(Transaction(50000, DEBIT, "", UPI, 0, None, Fingerprint(seq(32, _ => 0))))
  {
    BlankPartyEngineSound();
    BlankPartyMatch();
    FiveHundredRupees();
    assert Trim(" ") == "";
  }
}

=== FILE: SmsReceiver.dfy ===
/**
 The SMS broadcast receiver: for each message of an SMS_RECEIVED broadcast
 it skips null parts, flags non-bank senders, parses the body and pushes
 each parsed transaction to the ledger service on its own. Nothing is
 written to the local store here.

 The platform pieces are parameters: the broadcast's action and messages,
 the device id, the clock read during each parse (by message position) and
 the ISO-8601 rendering of an epoch-millisecond instant. The push's reply
 is only logged, so it is not modelled.
 */
module SmsReceiver {
  import opened Wrappers
  import opened Text
  import opened SmsParser
  import TransactionDao
  import HomeViewModel

  const SmsReceivedAction := "android.provider.Telephony.SMS_RECEIVED"
  const BankSenderLength: nat := 6

  /** One part of the broadcast; the platform may report either field as null. */
  datatype SmsMessage = SmsMessage(body: Option<string>, sender: Option<string>)

  /**
   What happened to one message: skipped for a null body or sender, or
   parsed with a warning when the sender does not look like a bank, and
   pushed when the parse succeeded.
   */
  datatype Handling = SkippedNull | Unparsed(warned: bool) | Pushed(warned: bool, request: SyncRequest)

  /** `sender.any { it.isLetter() }`, scanning from the front. */
  function HasLetter(s: string): (r: bool)
    ensures r <==> exists i :: 0 <= i < |s| && IsLetter(s[i])
  {
    if |s| == 0 then false
    else
      assert forall i :: 1 <= i < |s| ==> s[i] == s[1..][i - 1];
      IsLetter(s[0]) || HasLetter(s[1..])
  }

  /** `isBankMessage`: six characters, at least one of them a letter. */
  function IsBankMessage(sender: string): (r: bool)
    ensures r <==> |sender| == BankSenderLength && exists i :: 0 <= i < |sender| && IsLetter(sender[i])
  {
    |sender| == BankSenderLength && HasLetter(sender)
  }

  /** The receiver's `toDto`: the transaction's fields, the hash present, no category. */
  function ToDto(t: Transaction, formatInstant: int -> string): (d: TransactionDto)
    ensures d.amount == t.amount && d.kind == t.kind && d.merchant == t.merchant && d.source == t.source
    ensures d.timestamp == formatInstant(t.timestamp) && d.rawTextHash == Some(t.rawTextHash)
    ensures d.balance == (if t.balance.Some? then Some(t.balance.value as int) else None)
    ensures d.category == None
  {
    var balance: Option<int> := if t.balance.Some? then Some(t.balance.value) else None;
    TransactionDto(t.amount, t.kind, t.merchant, t.source, formatInstant(t.timestamp),
                   Some(t.rawTextHash), balance, None)
  }

  /** The loop body for one message. */
  function HandleMessage(e: Engine, m: SmsMessage, deviceId: string, now: int,
                         formatInstant: int -> string): (h: Handling)
    ensures h.SkippedNull? <==> m.body.None? || m.sender.None?
    ensures !h.SkippedNull? ==> h.warned == !IsBankMessage(m.sender.value)
    ensures h.Pushed? <==> m.body.Some? && m.sender.Some? && ParseMessage(e, m.body.value, now).Some?
    ensures h.Pushed? ==> h.request == SyncRequest(deviceId, [ToDto(ParseMessage(e, m.body.value, now).value, formatInstant)])
  {
    if m.body.None? || m.sender.None? then SkippedNull
    else
      var warned := !IsBankMessage(m.sender.value);
      match ParseMessage(e, m.body.value, now)
      case None => Unparsed(warned)
      case Some(t) => Pushed(warned, SyncRequest(deviceId, [ToDto(t, formatInstant)]))
  }

  /**
   `onReceive`: nothing for any other broadcast action; otherwise one
   handling per message, in order, the i-th parse reading `clock(i)`.
   */
  function OnReceive(e: Engine, action: string, messages: seq<SmsMessage>, deviceId: string,
                     clock: int -> int, formatInstant: int -> string): (r: seq<Handling>)
    ensures action != SmsReceivedAction ==> r == []
    ensures action == SmsReceivedAction ==> |r| == |messages|
    ensures action == SmsReceivedAction ==> forall i :: 0 <= i < |messages| ==>
              (r[i].Pushed? <==> && messages[i].body.Some? && messages[i].sender.Some?
                                 && ParseMessage(e, messages[i].body.value, clock(i)).Some?)
    ensures forall i :: 0 <= i < |r| ==> r[i].Pushed? ==> |r[i].request.transactions| == 1
    ensures action == SmsReceivedAction ==> forall i :: 0 <= i < |messages| ==>
              r[i] == HandleMessage(e, messages[i], deviceId, clock(i), formatInstant)
  {
    if action != SmsReceivedAction then []
    else
      var r := seq(|messages|, i requires 0 <= i < |messages| => HandleMessage(e, messages[i], deviceId, clock(i), formatInstant));
      assert forall i :: 0 <= i < |messages| ==> r[i] == HandleMessage(e, messages[i], deviceId, clock(i), formatInstant);
      r
  }

  // ---------------------------------------------------------------------
  // Properties
  // ---------------------------------------------------------------------

  /**
   The bank-sender test only decides the warning: two messages with the same
   body and non-null senders are pushed (or not) identically.
   */
  lemma SenderDoesNotGate(e: Engine, body: string, s1: string, s2: string, deviceId: string,
                          now: int, formatInstant: int -> string)
    ensures var h1 := HandleMessage(e, SmsMessage(Some(body), Some(s1)), deviceId, now, formatInstant);
            var h2 := HandleMessage(e, SmsMessage(Some(body), Some(s2)), deviceId, now, formatInstant);
            && h1.Pushed? == h2.Pushed?
            && (h1.Pushed? ==> h1.request == h2.request)
  {
  }

  /**
   The record the receiver pushes is the record the reconciler would push
   for the same transaction once stored, so a later reconciliation resends
   an identical record.
   */
  lemma ReceiverAndReconcilerAgree(t: Transaction, formatInstant: int -> string)
    ensures var balance: Option<int> := if t.balance.Some? then Some(t.balance.value) else None;
            var stored := TransactionDao.NewTransactionEntity(t.amount, t.kind, t.merchant, t.source,
                                                              t.timestamp, t.rawTextHash, balance);
            HomeViewModel.Mirrors(ToDto(t, formatInstant), stored, formatInstant)
  {
  }

  /** A sender like "HDFCBK" passes the bank test; a bare number of the same length does not. */
  lemma BankSenderExamples()
    ensures IsBankMessage("HDFCBK")
    ensures !IsBankMessage("123456")
    ensures !IsBankMessage("01")
  {
    assert IsLetter("HDFCBK"[0]);
  }
}

=== FILE: Text.dfy ===
/**
 The Kotlin string primitives the core relies on: `Char.isWhitespace`,
 `String.trim()`, `String.take(n)`, `contains(..., ignoreCase = true)` and
 `Char.isLetter`.
 */
module Text {

  /**
   Kotlin's `Char.isWhitespace()` on the JVM: `Character.isWhitespace` or
   `Character.isSpaceChar`, i.e. the ASCII controls TAB..CR and FS..US, and
   every Unicode space, line or paragraph separator.
   */
  predicate IsWhitespace(c: char) {
    || '\t' <= c <= '\r'
    || '\U{1C}' <= c <= '\U{1F}'
    || c == ' ' || c == '\U{A0}' || c == '\U{1680}'
    || '\U{2000}' <= c <= '\U{200A}'
    || c == '\U{2028}' || c == '\U{2029}' || c == '\U{202F}' || c == '\U{205F}' || c == '\U{3000}'
  }

  /** The 28 characters of the Basic Multilingual Plane `Char.isWhitespace()` accepts, one by one. */
  const WhitespaceChars: set<char> := {
    '\t', '\n', '\U{B}', '\U{C}', '\r',
    '\U{1C}', '\U{1D}', '\U{1E}', '\U{1F}',
    ' ', '\U{A0}', '\U{1680}',
    '\U{2000}', '\U{2001}', '\U{2002}', '\U{2003}', '\U{2004}', '\U{2005}',
    '\U{2006}', '\U{2007}', '\U{2008}', '\U{2009}', '\U{200A}',
    '\U{2028}', '\U{2029}', '\U{202F}', '\U{205F}', '\U{3000}'
  }

  /** The range test above accepts exactly the listed characters. */
  lemma WhitespaceEnumerated(c: char)
    ensures IsWhitespace(c) <==> c in WhitespaceChars
  {
    if IsWhitespace(c) {
      var k := c as int;
      assert c == k as char;
    }
  }

  /** `s` with its leading whitespace removed. */
  function TrimStart(s: string): (r: string)
    ensures |r| <= |s| && r == s[|s| - |r|..]
    ensures forall i :: 0 <= i < |s| - |r| ==> IsWhitespace(s[i])
    ensures |r| > 0 ==> !IsWhitespace(r[0])
  {
    if |s| > 0 && IsWhitespace(s[0]) then TrimStart(s[1..]) else s
  }

  /** `s` with its trailing whitespace removed. */
  function TrimEnd(s: string): (r: string)
    ensures |r| <= |s| && r == s[..|r|]
    ensures forall i :: |r| <= i < |s| ==> IsWhitespace(s[i])
    ensures |r| > 0 ==> !IsWhitespace(r[|r| - 1])
  {
    if |s| > 0 && IsWhitespace(s[|s| - 1]) then TrimEnd(s[..|s| - 1]) else s
  }

  /** The slice of `s` that trimming both ends keeps, and what it drops. */
  lemma TrimBothEnds(s: string) returns (a: nat, b: nat)
    ensures 0 <= a <= b <= |s| && TrimEnd(TrimStart(s)) == s[a..b]
    ensures forall i :: 0 <= i < a ==> IsWhitespace(s[i])
    ensures forall i :: b <= i < |s| ==> IsWhitespace(s[i])
  {
    a := TrimStartDrops(s);
    b := TrimEndOfSuffix(s, a, TrimStart(s));
  }

  /** Trimming the start keeps a suffix and drops only whitespace. */
  lemma TrimStartDrops(s: string) returns (a: nat)
    ensures a <= |s| && TrimStart(s) == s[a..]
    ensures forall i :: 0 <= i < a ==> IsWhitespace(s[i])
  {
    a := |s| - |TrimStart(s)|;
  }

  /** Trimming the end of a suffix keeps a slice of the whole and drops only whitespace. */
  lemma TrimEndOfSuffix(s: string, a: nat, t: string) returns (b: nat)
    requires a <= |s| && t == s[a..]
    ensures a <= b <= |s| && TrimEnd(t) == s[a..b]
    ensures forall i :: b <= i < |s| ==> IsWhitespace(s[i])
  {
    var r := TrimEnd(t);
    b := a + |r|;
    assert r == t[..|r|];
    forall i | b <= i < |s| ensures IsWhitespace(s[i]) {
      assert s[i] == t[i - a];
    }
  }

  /** The same, with the slice bounds left implicit. */
  lemma TrimBothEndsSlice(s: string)
    ensures var r := TrimEnd(TrimStart(s));
            exists a, b :: 0 <= a <= b <= |s| && r == s[a..b]
                           && (forall i :: 0 <= i < a ==> IsWhitespace(s[i]))
                           && (forall i :: b <= i < |s| ==> IsWhitespace(s[i]))
  {
    var a, b := TrimBothEnds(s);
  }

  /**
   Kotlin's `String.trim()`: the longest infix `s[a..b]` that neither starts
   nor ends with whitespace, everything outside it being whitespace.
   */
  function Trim(s: string): (r: string)
    ensures exists a, b :: 0 <= a <= b <= |s| && r == s[a..b]
                           && (forall i :: 0 <= i < a ==> IsWhitespace(s[i]))
                           && (forall i :: b <= i < |s| ==> IsWhitespace(s[i]))
    ensures |r| > 0 ==> !IsWhitespace(r[0]) && !IsWhitespace(r[|r| - 1])
  {
    TrimBothEndsSlice(s);
    var t := TrimStart(s);
    var r := TrimEnd(t);
    assert |r| > 0 ==> r[0] == t[0];
    r
  }

  /** Trimming twice is trimming once. */
  lemma TrimIdempotent(s: string)
    ensures Trim(Trim(s)) == Trim(s)
  {
    var r := Trim(s);
    if |r| > 0 {
      assert TrimStart(r) == r;
      assert TrimEnd(r) == r;
    }
  }

  /** Kotlin's `String.take(n)`: the prefix of length `min(n, |s|)`. */
  function Take(s: string, n: nat): (r: string)
    ensures |r| == (if |s| <= n then |s| else n)
    ensures r == s[..|r|]
  {
    if |s| <= n then s else s[..n]
  }

  /** `t` occurs contiguously in `s`. */
  ghost predicate IsInfix(t: string, s: string) {
    exists i, j :: 0 <= i <= j <= |s| && s[i..j] == t
  }

  lemma PrefixIsInfix(t: string, s: string)
    requires |t| <= |s| && t == s[..|t|]
    ensures IsInfix(t, s)
  {
    assert s[0..|t|] == t;
  }

  lemma TrimIsInfix(s: string)
    ensures IsInfix(Trim(s), s)
  {
  }

  lemma InfixTransitive(t: string, u: string, s: string)
    requires IsInfix(t, u) && IsInfix(u, s)
    ensures IsInfix(t, s)
  {
    var i, j :| 0 <= i <= j <= |u| && u[i..j] == t;
    var k, l :| 0 <= k <= l <= |s| && s[k..l] == u;
    forall y | k + i <= y < k + j
      ensures s[y] == t[y - k - i]
    {
      assert s[y] == u[y - k];
    }
    assert s[k + i..k + j] == t;
  }

  /**
   Kotlin's case-insensitive character comparison against 'r' and 's':
   two characters match when their upper-case forms, or the lower-case forms
   of those, agree. Besides 'S' and 's', the long s U+017F upper-cases to 'S'.
   */
  predicate IsRIgnoreCase(c: char) {
    c == 'r' || c == 'R'
  }

  predicate IsSIgnoreCase(c: char) {
    c == 's' || c == 'S' || c == '\U{17F}'
  }

  /** `s.contains("rs", ignoreCase = true)`. */
  function ContainsRsIgnoreCase(s: string): (r: bool)
    ensures r <==> exists i :: 0 <= i < |s| - 1 && IsRIgnoreCase(s[i]) && IsSIgnoreCase(s[i + 1])
  {
    if |s| < 2 then false
    else (IsRIgnoreCase(s[0]) && IsSIgnoreCase(s[1])) || ContainsRsIgnoreCase(s[1..])
  }

  /** "rs" under the ASCII-only case folding of a `(?i)` regular expression. */
  predicate ContainsRsAscii(s: string) {
    exists i :: 0 <= i < |s| - 1 && (s[i] == 'r' || s[i] == 'R') && (s[i + 1] == 's' || s[i + 1] == 'S')
  }

  /** Every text a `(?i)` pattern containing "rs" can match passes the gate. */
  lemma AsciiRsPassesGate(s: string)
    requires ContainsRsAscii(s)
    ensures ContainsRsIgnoreCase(s)
  {
  }

  /** `Char.isLetter()`, restricted to the Latin alphabet. */
  predicate IsLetter(c: char) {
    'a' <= c <= 'z' || 'A' <= c <= 'Z'
  }

  /** The 52 letters of the Latin alphabet, listed. */
  const LatinLetters: set<char> := LowerLetters + UpperLetters

  const LowerLetters: set<char> := {
    'a', 'b', 'c', 'd', 'e', 'f', 'g', 'h', 'i', 'j', 'k', 'l', 'm',
    'n', 'o', 'p', 'q', 'r', 's', 't', 'u', 'v', 'w', 'x', 'y', 'z'
  }

  const UpperLetters: set<char> := {
    'A', 'B', 'C', 'D', 'E', 'F', 'G', 'H', 'I', 'J', 'K', 'L', 'M',
    'N', 'O', 'P', 'Q', 'R', 'S', 'T', 'U', 'V', 'W', 'X', 'Y', 'Z'
  }

  /** The range test above accepts exactly the listed letters. */
  lemma LetterEnumerated(c: char)
    ensures IsLetter(c) <==> c in LatinLetters
  {
    LowerEnumerated(c);
    UpperEnumerated(c);
  }

  lemma LowerEnumerated(c: char)
    ensures 'a' <= c <= 'z' <==> c in LowerLetters
  {
    var k := c as int;
    assert c == k as char;
  }

  lemma UpperEnumerated(c: char)
    ensures 'A' <= c <= 'Z' <==> c in UpperLetters
  {
    var k := c as int;
    assert c == k as char;
  }
}

=== FILE: TransactionDao.dfy ===
/**
 The local `transactions` table (`TransactionEntity`) and the six
 `TransactionDao` operations as pure functions over it.

 The table is its rows in rowid order. Because `id` is an
 `INTEGER PRIMARY KEY AUTOINCREMENT` column, the rowid is the id, so the ids
 are strictly ascending along the sequence; `sequence` is SQLite's
 AUTOINCREMENT counter, the largest id ever handed out.
 */
module TransactionDao {
  import opened Wrappers

  const DEBIT := "DEBIT"

  /**
   A stored transaction. `kind` is the Kotlin field `type` ("CREDIT" or
   "DEBIT"); amounts and balances are in paise.
   */
  datatype TransactionEntity = TransactionEntity(
    id: int,
    amount: int,
    kind: string,
    merchant: string,
    source: string,
    timestamp: int,
    balance: Option<int>,
    rawTextHash: string,
    category: Option<string>,
    isSynced: bool)

  /**
   The Kotlin constructor with its defaults: id 0 ("let the store assign
   one"), no balance unless given, no category, not synced.
   */
  function NewTransactionEntity(amount: int, kind: string, merchant: string, source: string,
                                timestamp: int, rawTextHash: string, balance: Option<int> := None)
    : (e: TransactionEntity)
    ensures e.id == 0 && e.category.None? && !e.isSynced
    ensures e.amount == amount && e.kind == kind && e.merchant == merchant && e.source == source
    ensures e.timestamp == timestamp && e.rawTextHash == rawTextHash && e.balance == balance
  {
    TransactionEntity(0, amount, kind, merchant, source, timestamp, balance, rawTextHash, None, false)
  }

  /** `a` and `b` are the same record up to the two columns the store updates. */
  predicate SameRecord(a: TransactionEntity, b: TransactionEntity) {
    a.(isSynced := false, category := None) == b.(isSynced := false, category := None)
  }

  datatype Table = Table(rows: seq<TransactionEntity>, sequence: int)

  predicate IdsAscending(rows: seq<TransactionEntity>) {
    forall i, j :: 0 <= i < j < |rows| ==> rows[i].id < rows[j].id
  }

  /** The primary key is unique (ids ascend in rowid order) and no id exceeds the counter. */
  predicate Valid(t: Table) {
    && IdsAscending(t.rows)
    && (forall i :: 0 <= i < |t.rows| ==> t.rows[i].id <= t.sequence)
    && t.sequence >= 0
  }

  predicate HasId(rows: seq<TransactionEntity>, id: int) {
    exists i :: 0 <= i < |rows| && rows[i].id == id
  }

  // ---------------------------------------------------------------------
  // insertTransaction (OnConflictStrategy.IGNORE)
  // ---------------------------------------------------------------------

  /** Places `x` among rows of ascending id. */
  function InsertById(rows: seq<TransactionEntity>, x: TransactionEntity): (r: seq<TransactionEntity>)
    requires IdsAscending(rows) && !HasId(rows, x.id)
    ensures IdsAscending(r)
    ensures multiset(r) == multiset(rows) + multiset{x}
  {
    assert |rows| > 0 ==> rows == [rows[0]] + rows[1..];
    if |rows| == 0 || x.id < rows[0].id then
      assert forall y :: y in rows ==> x.id < y.id by {
        forall y | y in rows ensures x.id < y.id { HeadIdIsSmallest(rows, y); }
      }
      ConsAscending(x, rows);
      [x] + rows
    else
      TailOfAscending(rows, x.id);
      var tail := InsertById(rows[1..], x);
      assert forall y :: y in tail ==> rows[0].id < y.id by {
        forall y | y in tail ensures rows[0].id < y.id {
          assert y in multiset(tail);
          if y != x {
            assert y in rows;
            HeadIdIsSmallest(rows, y);
            assert y != rows[0] by { assert y in rows[1..]; TailIdsAbove(rows, y); }
          }
        }
      }
      ConsAscending(rows[0], tail);
      [rows[0]] + tail
  }

  /** No row of an ascending sequence has a smaller id than its head. */
  lemma HeadIdIsSmallest(rows: seq<TransactionEntity>, y: TransactionEntity)
    requires IdsAscending(rows) && y in rows
    ensures rows[0].id <= y.id
  {
    var k :| 0 <= k < |rows| && rows[k] == y;
  }

  /** Every row after the head has a larger id than the head. */
  lemma TailIdsAbove(rows: seq<TransactionEntity>, y: TransactionEntity)
    requires IdsAscending(rows) && |rows| > 0 && y in rows[1..]
    ensures rows[0].id < y.id
  {
    var k :| 0 <= k < |rows[1..]| && rows[1..][k] == y;
    assert rows[k + 1] == y;
  }

  /** The tail of an ascending sequence is ascending and lacks any id the whole lacks. */
  lemma TailOfAscending(rows: seq<TransactionEntity>, id: int)
    requires IdsAscending(rows) && |rows| > 0 && !HasId(rows, id)
    ensures IdsAscending(rows[1..]) && !HasId(rows[1..], id)
  {
  }

  lemma ConsAscending(h: TransactionEntity, tail: seq<TransactionEntity>)
    requires IdsAscending(tail)
    requires forall y :: y in tail ==> h.id < y.id
    ensures IdsAscending([h] + tail)
  {
    var r := [h] + tail;
    forall i, j | 0 <= i < j < |r| ensures r[i].id < r[j].id {
      if i == 0 {
        assert r[j] == tail[j - 1];
        assert r[j] in tail;
      } else {
        assert r[i] == tail[i - 1] && r[j] == tail[j - 1];
      }
    }
  }

  /**
   `insertTransaction`: Room binds an id of 0 as NULL, so such a row gets
   the next AUTOINCREMENT id; an explicit id already present makes the
   insert a no-op returning -1; otherwise the row is stored under its id.
   Returns the new row's id.
   */
  function InsertTransaction(t: Table, e: TransactionEntity): (r: (Table, int))
    requires Valid(t)
    ensures Valid(r.0)
    ensures e.id != 0 && HasId(t.rows, e.id) ==> r.0 == t && r.1 == -1
    ensures !(e.id != 0 && HasId(t.rows, e.id)) ==>
              && !HasId(t.rows, r.1)
              && (e.id != 0 ==> r.1 == e.id)
              && (e.id == 0 ==> forall i :: 0 <= i < |t.rows| ==> t.rows[i].id < r.1)
              && |r.0.rows| == |t.rows| + 1
              && multiset(r.0.rows) == multiset(t.rows) + multiset{e.(id := r.1)}
  {
    if e.id != 0 && HasId(t.rows, e.id) then
      (t, -1)
    else if e.id == 0 then
      var id := t.sequence + 1;
      var rows := t.rows + [e.(id := id)];
      AppendWithNextId(t, e.(id := id));
      (Table(rows, id), id)
    else
      var rows := InsertById(t.rows, e);
      InsertByIdKeepsValid(t, e);
      (Table(rows, if e.id > t.sequence then e.id else t.sequence), e.id)
  }

  /** Appending a row under the next AUTOINCREMENT id keeps the table valid; the id is new and largest. */
  lemma AppendWithNextId(t: Table, x: TransactionEntity)
    requires Valid(t) && x.id == t.sequence + 1
    ensures Valid(Table(t.rows + [x], x.id))
    ensures forall i :: 0 <= i < |t.rows| ==> t.rows[i].id < x.id
    ensures !HasId(t.rows, x.id)
    ensures multiset(t.rows + [x]) == multiset(t.rows) + multiset{x}
  {
  }

  /** Storing a row under an explicit, unused id keeps the table valid once the counter catches up. */
  lemma InsertByIdKeepsValid(t: Table, e: TransactionEntity)
    requires Valid(t) && !HasId(t.rows, e.id)
    ensures Valid(Table(InsertById(t.rows, e), if e.id > t.sequence then e.id else t.sequence))
    ensures |InsertById(t.rows, e)| == |t.rows| + 1
  {
    var rows := InsertById(t.rows, e);
    assert |rows| == |multiset(rows)|;
    forall i | 0 <= i < |rows| ensures rows[i] in t.rows || rows[i] == e {
      assert rows[i] in multiset(rows);
    }
  }

  // ---------------------------------------------------------------------
  // Queries
  // ---------------------------------------------------------------------

  /**
   `getUnsyncedTransactions`: the rows with `isSynced = 0`. The query has no
   ORDER BY; the model returns them in table (rowid) order.
   */
  function GetUnsyncedTransactions(t: Table): (r: seq<TransactionEntity>)
    ensures forall x :: x in r <==> x in t.rows && !x.isSynced
    ensures |r| <= |t.rows|
    ensures IdsAscending(t.rows) ==> IdsAscending(r)
    decreases |t.rows|
  {
    if |t.rows| == 0 then []
    else
      var rest := GetUnsyncedTransactions(Table(t.rows[1..], t.sequence));
      assert t.rows == [t.rows[0]] + t.rows[1..];
      if t.rows[0].isSynced then rest else [t.rows[0]] + rest
  }

  predicate SortedByTimeDesc(s: seq<TransactionEntity>) {
    forall i, j :: 0 <= i < j < |s| ==> s[i].timestamp >= s[j].timestamp
  }

  /** A row no older than every row of a sorted sequence may be put in front of it. */
  lemma ConsSorted(h: TransactionEntity, tail: seq<TransactionEntity>)
    requires SortedByTimeDesc(tail)
    requires forall y :: y in tail ==> y.timestamp <= h.timestamp
    ensures SortedByTimeDesc([h] + tail)
  {
    var r := [h] + tail;
    forall i, j | 0 <= i < j < |r| ensures r[i].timestamp >= r[j].timestamp {
      assert r[j] == tail[j - 1];
      if i == 0 {
        assert r[j] in tail;
      } else {
        assert r[i] == tail[i - 1];
      }
    }
  }

  /** Every row of a sorted sequence is at most as recent as its head. */
  lemma HeadIsLatest(s: seq<TransactionEntity>, y: TransactionEntity)
    requires SortedByTimeDesc(s) && |s| > 0
    requires y in s
    ensures y.timestamp <= s[0].timestamp
  {
    var k :| 0 <= k < |s| && s[k] == y;
  }

  /** Inserts `x` after every row at least as recent (rows of equal time keep their order). */
  function InsertByTime(s: seq<TransactionEntity>, x: TransactionEntity): (r: seq<TransactionEntity>)
    requires SortedByTimeDesc(s)
    ensures SortedByTimeDesc(r)
    ensures multiset(r) == multiset(s) + multiset{x}
  {
    assert |s| > 0 ==> s == [s[0]] + s[1..];
    if |s| == 0 || s[0].timestamp < x.timestamp then
      assert forall y :: y in s ==> y.timestamp <= x.timestamp by {
        forall y | y in s ensures y.timestamp <= x.timestamp { HeadIsLatest(s, y); }
      }
      ConsSorted(x, s);
      [x] + s
    else
      var tail := InsertByTime(s[1..], x);
      assert forall y :: y in tail ==> y.timestamp <= s[0].timestamp by {
        forall y | y in tail ensures y.timestamp <= s[0].timestamp {
          assert y in multiset(tail);
          if y != x {
            assert y in s;
            HeadIsLatest(s, y);
          }
        }
      }
      ConsSorted(s[0], tail);
      [s[0]] + tail
  }

  function SortByTimeDesc(s: seq<TransactionEntity>): (r: seq<TransactionEntity>)
    ensures SortedByTimeDesc(r)
    ensures multiset(r) == multiset(s)
  {
    if |s| == 0 then []
    else
      assert s == s[..|s| - 1] + [s[|s| - 1]];
      InsertByTime(SortByTimeDesc(s[..|s| - 1]), s[|s| - 1])
  }

  /**
   `getAllTransactions` (`ORDER BY timestamp DESC`): every row exactly once,
   most recent first.
   */
  function GetAllTransactions(t: Table): (r: seq<TransactionEntity>)
    ensures multiset(r) == multiset(t.rows)
    ensures SortedByTimeDesc(r)
  {
    SortByTimeDesc(t.rows)
  }

  /** A row that `getTotalSpentSince(startTime)` adds up. */
  predicate CountsAsSpent(x: TransactionEntity, startTime: int) {
    x.kind == DEBIT && x.timestamp >= startTime
  }

  function SpentSum(rows: seq<TransactionEntity>, startTime: int): int {
    if |rows| == 0 then 0
    else (if CountsAsSpent(rows[0], startTime) then rows[0].amount else 0) + SpentSum(rows[1..], startTime)
  }

  /**
   `getTotalSpentSince`: `SUM(amount)` over DEBIT rows at or after
   `startTime`; SQL's SUM of no rows is NULL.
   */
  function GetTotalSpentSince(t: Table, startTime: int): (r: Option<int>)
    ensures r.None? <==> forall i :: 0 <= i < |t.rows| ==> !CountsAsSpent(t.rows[i], startTime)
    ensures r.Some? ==> r.value == SpentSum(t.rows, startTime)
  {
    if exists i :: 0 <= i < |t.rows| && CountsAsSpent(t.rows[i], startTime) then
      Some(SpentSum(t.rows, startTime))
    else
      None
  }

  // ---------------------------------------------------------------------
  // Updates
  // ---------------------------------------------------------------------

  /** `markAsSynced(ids)`: `isSynced = 1` on the rows whose id is listed; nothing else changes. */
  function MarkAsSynced(t: Table, ids: seq<int>): (r: Table)
    ensures r.sequence == t.sequence && |r.rows| == |t.rows|
    ensures forall i :: 0 <= i < |t.rows| ==>
              && SameRecord(r.rows[i], t.rows[i])
              && r.rows[i].category == t.rows[i].category
              && (r.rows[i].isSynced <==> t.rows[i].isSynced || t.rows[i].id in ids)
  {
    Table(seq(|t.rows|, i requires 0 <= i < |t.rows| =>
                if t.rows[i].id in ids then t.rows[i].(isSynced := true) else t.rows[i]),
          t.sequence)
  }

  /**
   `markAllAsUnsynced` (called by the reconciler but not declared on the
   DAO): `isSynced = 0` on every row; nothing else changes.
   */
  function MarkAllAsUnsynced(t: Table): (r: Table)
    ensures r.sequence == t.sequence && |r.rows| == |t.rows|
    ensures forall i :: 0 <= i < |t.rows| ==>
              && SameRecord(r.rows[i], t.rows[i])
              && r.rows[i].category == t.rows[i].category
              && !r.rows[i].isSynced
  {
    Table(seq(|t.rows|, i requires 0 <= i < |t.rows| => t.rows[i].(isSynced := false)), t.sequence)
  }

  /** `updateCategory(hash, category)`: every row carrying `hash` gets `category`; nothing else changes. */
  function UpdateCategory(t: Table, rawTextHash: string, category: string): (r: Table)
    ensures r.sequence == t.sequence && |r.rows| == |t.rows|
    ensures forall i :: 0 <= i < |t.rows| ==>
              && SameRecord(r.rows[i], t.rows[i])
              && r.rows[i].isSynced == t.rows[i].isSynced
              && r.rows[i].category == (if t.rows[i].rawTextHash == rawTextHash then Some(category) else t.rows[i].category)
  {
    Table(seq(|t.rows|, i requires 0 <= i < |t.rows| =>
                if t.rows[i].rawTextHash == rawTextHash then t.rows[i].(category := Some(category)) else t.rows[i]),
          t.sequence)
  }

  // ---------------------------------------------------------------------
  // Properties
  // ---------------------------------------------------------------------

  /** A freshly built entity is never ignored: it always adds one row under a new, largest id. */
  lemma FreshEntityIsInserted(t: Table, amount: int, kind: string, merchant: string, source: string,
                              timestamp: int, rawTextHash: string)
    requires Valid(t)
    ensures var r := InsertTransaction(t, NewTransactionEntity(amount, kind, merchant, source, timestamp, rawTextHash));
            && r.1 == t.sequence + 1
            && |r.0.rows| == |t.rows| + 1
            && r.0.rows[|t.rows|].id == r.1 && !r.0.rows[|t.rows|].isSynced
  {
  }

  /**
   `rawTextHash` is not a key: inserting the same fresh entity twice stores
   two rows with one hash, under different ids.
   */
  lemma HashIsNotUnique(t: Table, e: TransactionEntity)
    requires Valid(t) && e.id == 0
    ensures var t1 := InsertTransaction(t, e).0;
            var t2 := InsertTransaction(t1, e).0;
            && |t2.rows| == |t.rows| + 2
            && t2.rows[|t.rows|].rawTextHash == t2.rows[|t.rows| + 1].rawTextHash
            && t2.rows[|t.rows|].id != t2.rows[|t.rows| + 1].id
  {
  }

  /** Inserting a row whose id is taken is ignored, so a repeated explicit-id insert changes nothing. */
  lemma InsertIgnoreIdempotent(t: Table, e: TransactionEntity)
    requires Valid(t) && e.id != 0
    ensures var t1 := InsertTransaction(t, e).0;
            InsertTransaction(t1, e) == (t1, -1)
  {
    var (t1, id) := InsertTransaction(t, e);
    if !HasId(t.rows, e.id) {
      assert e.(id := id) == e;
      assert e in multiset(t1.rows);
      var k :| 0 <= k < |t1.rows| && t1.rows[k] == e;
    }
  }

  /** After `markAsSynced(ids)` the unsynced rows are exactly those that were unsynced and not listed. */
  lemma MarkAsSyncedShrinksUnsynced(t: Table, ids: seq<int>)
    ensures forall x :: x in GetUnsyncedTransactions(MarkAsSynced(t, ids)) <==>
                          x in GetUnsyncedTransactions(t) && x.id !in ids
  {
    var r := MarkAsSynced(t, ids);
    forall x
      ensures x in GetUnsyncedTransactions(r) <==> x in GetUnsyncedTransactions(t) && x.id !in ids
    {
      if x in r.rows && !x.isSynced {
        var i :| 0 <= i < |r.rows| && r.rows[i] == x;
        assert t.rows[i] == x;
      }
      if x in t.rows && !x.isSynced && x.id !in ids {
        var i :| 0 <= i < |t.rows| && t.rows[i] == x;
        assert r.rows[i] == x;
      }
    }
  }

  /** Marking the same ids twice is marking them once. */
  lemma MarkAsSyncedIdempotent(t: Table, ids: seq<int>)
    ensures MarkAsSynced(MarkAsSynced(t, ids), ids) == MarkAsSynced(t, ids)
  {
  }

  /** Ids that name no row change nothing. */
  lemma MarkUnknownIdsIsNoOp(t: Table, ids: seq<int>)
    requires forall k :: k in ids ==> !HasId(t.rows, k)
    ensures MarkAsSynced(t, ids) == t
  {
    var r := MarkAsSynced(t, ids);
    assert forall i :: 0 <= i < |t.rows| ==> t.rows[i].id !in ids;
    assert r.rows == t.rows;
  }

  /** Updating a hash's category twice keeps only the second value; repeating one update is idempotent. */
  lemma UpdateCategoryLastWins(t: Table, h: string, c1: string, c2: string)
    ensures UpdateCategory(UpdateCategory(t, h, c1), h, c2) == UpdateCategory(t, h, c2)
  {
  }

  /** Appending a row adds its amount to the total exactly when it counts; CREDIT rows never do. */
  lemma {:induction false} SpentSumAppend(rows: seq<TransactionEntity>, x: TransactionEntity, startTime: int)
    ensures SpentSum(rows + [x], startTime) == SpentSum(rows, startTime) + (if CountsAsSpent(x, startTime) then x.amount else 0)
    ensures x.kind != DEBIT ==> SpentSum(rows + [x], startTime) == SpentSum(rows, startTime)
  {
    if |rows| > 0 {
      assert (rows + [x])[1..] == rows[1..] + [x];
      SpentSumAppend(rows[1..], x, startTime);
    }
  }

  /** With non-negative amounts, a later start time never yields a larger total. */
  lemma {:induction false} SpentSumNonIncreasing(rows: seq<TransactionEntity>, t1: int, t2: int)
    requires t1 <= t2
    requires forall i :: 0 <= i < |rows| ==> rows[i].amount >= 0
    ensures SpentSum(rows, t2) <= SpentSum(rows, t1)
    ensures SpentSum(rows, t2) >= 0
  {
    if |rows| > 0 {
      SpentSumNonIncreasing(rows[1..], t1, t2);
    }
  }

  /** The same monotonicity for the query itself, with NULL read as "nothing spent". */
  lemma TotalSpentNonIncreasing(t: Table, t1: int, t2: int)
    requires t1 <= t2
    requires forall i :: 0 <= i < |t.rows| ==> t.rows[i].amount >= 0
    ensures GetTotalSpentSince(t, t2).GetOr(0) <= GetTotalSpentSince(t, t1).GetOr(0)
    ensures GetTotalSpentSince(t, t2).Some? ==> GetTotalSpentSince(t, t1).Some?
  {
    SpentSumNonIncreasing(t.rows, t1, t2);
  }
}

=== FILE: Wrappers.dfy ===
/** Kotlin's nullable types (`T?`) are modelled as `Option<T>`. */
module Wrappers {

  datatype Option<+T> = None | Some(value: T) {

    /** Kotlin's elvis operator: `x ?: default`. */
    function GetOr(default: T): T {
      match this
      case Some(v) => v
      case None => default
    }
  }
}
